=== FILE: README.md ===
# Multi-tenant chat back end and widget: a Dafny model

This project models the per-message decision logic of a small multi-tenant
AI chat service and proves properties of it. The service has two serverless
handlers and an embeddable widget:

- **The main chat handler** (`netlify/functions/chat2.js`) runs these steps in order:
  - It answers the CORS preflight.
  - It loads the tenant's bot configuration, products and today's usage.
  - It stops at the plan's daily ceiling.
  - It builds a system prompt from the configuration and the product list.
  - It adds the session's last four turns in chronological order.
  - It asks Groq and then Gemini, and the first non-empty answer wins.
  - It extracts an optional `[LEAD_DATA: name | phone | interest]` marker from the answer. It stores the lead and alerts the tenant on Telegram.
  - It records the usage and the turn pair, and returns the reply with the marker removed.
- **The router handler** (`netlify/functions/chat.js`) does the following:
  - It answers the preflight and rejects other non-POST methods.
  - It refuses unknown or inactive clients.
  - It dispatches on the request `type`:
    - `chat` makes one Groq call with a key drawn at random from the `GROQ_KEY_*` pool, and falls back to a fixed text when there is no content.
    - `notify` forwards a text to Telegram.
    - Anything else gets 400.
- **The widget** (`widget.js`) has these pieces:
  - A message formatter that makes three global rewrites in order: image markers become `<img>` tags, `**bold**` becomes `<strong>`, and newlines become `<br>`.
  - A send button that is enabled only for non-blank input.
  - `handleSend`, which posts the trimmed text.
  - A one-time switch from the welcome panel to the chat area.
  - The open/close toggle.

Each handler is a pure function. Its inputs are:
- the request;
- the rows the store returned;
- the answers of the outside world (one `Outcome` per provider: threw, no content, or content; and whether the Telegram request can be sent).

Its result is a `Handled` value with three parts:
- the HTTP response;
- the provider calls made, in order;
- the effects issued, in order: `InsertTurns`, `IncrementUsage`, `InsertLead` and `SendAlert`.

Properties such as "over the quota nothing is written" are therefore statements about that list.

JavaScript semantics are modelled explicitly where the behaviour depends on them:
- `trim` and the regex class `\s`, which share one whitespace set;
- `includes`;
- `split` on one character;
- truthiness of optional strings;
- the lazy `(.*?)X` scan, which stops at the first `X` and fails at a line terminator;
- the greedy `\s*` in front of it. The lemma `Formatter.ImageBacktrack` shows that backtracking into `\s*` never finds a match that the longest whitespace run misses, so a single left-to-right scan is exact.

Modules, one per file:
- `Optional`, `JsStrings`, `History`, `Failover`, `Quota`, `Prompt`, `LeadDirective` and `Http` hold the shared pieces.
- `MainChat` is the main handler.
- `Router` is the router handler.
- `Formatter` is the widget's formatter.
- `ChatWidget` is the widget's state.

The model follows the code in these behaviours, which a reader might not expect:

- The main handler does not catch a Telegram request that rejects. The lead is already inserted. The request then ends in the generic 500, and the reply, the turns and the usage increment are lost (`MainChat.AlertFailureLosesReply`).
- The main handler does not reject methods other than POST and OPTIONS. Such a request is processed like a POST.
- The main handler has no client-status gate: an inactive tenant is served like an active one.
- The router handler has no quota gate.
- Both history queries filter on the session id only, not on the tenant.
- The widget draws a new session id for every message. `ChatWidget.HandleSendAsWritten` models this, and Findings explains it.

Two behaviours of the code as written are defects (see Findings). For each, the model has the as-written member and the corrected member, and the members built on top use the corrected one:
- `MainChat.Handle` gates with the corrected `Quota.LimitReached`. `MainChat.QuotaAsWritten` shows it decides like the code for every plan name that is not an inherited object property.
- `ChatWidget.HandleSend` posts the session fixed at page load, not `'sess_' + Date.now()` at send time.

## Model

| member | source | states |
|---|---|---|
| Quota.Ceiling | netlify/functions/chat2.js:60-62 | the table's own values, Lite 30, Standard 70 and Pro 150; any other plan is held to the default of 30; every ceiling lies between 30 and 150 |
| Quota.LimitReached | netlify/functions/chat2.js:58-62 | the corrected gate; `Quota.GateAlwaysBounded` states its bounds and `Quota.AsWrittenAgreesElsewhere` ties it to the code as written |
| Quota.LimitReachedAsWritten | netlify/functions/chat2.js:61-62 | the gate as written; `Quota.InheritedPlanIsUnlimited` shows an inherited plan name is never stopped, and `Quota.AsWrittenAgreesElsewhere` shows it agrees with the corrected gate elsewhere |
| Quota.CeilingsAscend | netlify/functions/chat2.js:61 | the ceilings rise strictly from Lite to Standard to Pro |
| Quota.GateAlwaysBounded | netlify/functions/chat2.js:58-62 | from 150 messages on every tenant is stopped; an unknown plan is stopped exactly from 30; a missing usage row never stops a tenant |
| Quota.InheritedPlanIsUnlimited | netlify/functions/chat2.js:61-62 | as written, the plan `toString` is never stopped at any usage, though the corrected gate stops it from 150 on |
| Quota.AsWrittenAgreesElsewhere | netlify/functions/chat2.js:61-62 | for every plan not named like an inherited object property, the code as written and the corrected gate decide alike |
| MainChat.QuotaShortCircuits | netlify/functions/chat2.js:58-64 | at or over the corrected ceiling the answer is the limit text with 200, with no provider call and no effect |
| MainChat.QuotaAsWritten | netlify/functions/chat2.js:58-64 | for every plan not named like an inherited object property, the handler gives the limit reply exactly when `currentUsage >= (limits[plan] \|\| 30)` holds, and otherwise calls a provider |
| MainChat.GroqModel | netlify/functions/chat2.js:8 | the large Groq model is chosen exactly for the Pro plan |
| MainChat.Providers | netlify/functions/chat2.js:7-10 | the failover list is Groq first, then Gemini |
| Failover.Dispatch | netlify/functions/chat2.js:12-23 | a reply exists iff some provider yields non-empty content; it is the content of the first one, no later provider is invoked, and without a reply every provider was invoked |
| Failover.RunFailover | netlify/functions/chat2.js:12-23 | the loop calls a prefix of the provider list, stops at the first non-empty content, and agrees with `Dispatch` |
| Failover.DispatchFirst | netlify/functions/chat2.js:12-22 | the first yielding provider determines both the reply and the number of providers invoked |
| Failover.SecondProviderAnswers | netlify/functions/chat2.js:12-22 | a failing first provider and an answering second one give the second's answer after two calls |
| MainChat.FailoverOrder | netlify/functions/chat2.js:6-22 | Gemini is called only after Groq failed, a Groq answer ends the loop, and every call carries the same messages |
| MainChat.Context | netlify/functions/chat2.js:83-89 | the message list of the main handler; `MainChat.ContextMessages` states its shape |
| MainChat.ContextMessages | netlify/functions/chat2.js:83-89 | the list is the system prompt built from the configuration and products, then the session's last four turns oldest first (none when the history query failed), then the user message |
| MainChat.ContextSent | netlify/functions/chat2.js:83-92 | past the gate, the first provider call carries the tenant's system prompt, the session's recent turns oldest first and the user message, and every call carries that same list |
| MainChat.AdmittedCalls | netlify/functions/chat2.js:83-92 | past the gate, the provider calls are the dispatched prefix of the plan's providers, each carrying the message list of `MainChat.Context` |
| MainChat.AllProvidersFailed | netlify/functions/chat2.js:92-119 | when no provider yields content both are tried, the answer is the generic 500, and nothing is written |
| Prompt.ProductLineIsOneLine | netlify/functions/chat2.js:67 | a product without newlines in its fields renders as a single line |
| Prompt.KnowledgeBlockLines | netlify/functions/chat2.js:67 | no products give an empty block; otherwise splitting the block on newlines gives back exactly one rendered line per product, in order |
| Prompt.SystemPrompt | netlify/functions/chat2.js:69-80 | the prompt carries the identity line, the product block after the persona and knowledge, and the fixed rules at its end |
| Prompt.ProductLine | netlify/functions/chat2.js:67 | one product rendered as `● name: description (Rs. price) [IMAGE: url]`; `Prompt.ProductLineIsOneLine` shows it is one line |
| Prompt.KnowledgeBlock | netlify/functions/chat2.js:67 | the product lines joined by newlines; `Prompt.KnowledgeBlockLines` shows the block splits back into those lines |
| History.SessionTurns | netlify/functions/chat2.js:83 | the query keeps exactly the log's rows of the requested session |
| History.SessionTurnsSplit | netlify/functions/chat2.js:83 | the filter keeps log order: the session's rows of a log split in two are those of the first part, then those of the second |
| History.SessionTurnsSingle | netlify/functions/chat2.js:83 | a single row is kept exactly when its session id is the requested one |
| History.RecentQuery | netlify/functions/chat2.js:83 | the query returns at most four of the session's turns, newest first |
| History.HistoryWindow | netlify/functions/chat2.js:87 | a failed query contributes no history; otherwise the rows are reversed into messages |
| History.Assemble | netlify/functions/chat2.js:85-89 | the request's messages are the system prompt first, then the window unchanged, then the user message last |
| History.WindowIsRecentSuffix | netlify/functions/chat2.js:83-87 | the reversed query result is the session's last four turns in chronological order |
| History.ContextBounded | netlify/functions/chat2.js:83-89 | the context has 2 to 6 messages: the system prompt first, the user message last, the recent turns oldest first in between |
| LeadDirective.FindFrom | netlify/functions/chat2.js:96 | the search returns the leftmost position where the marker pattern matches, or reports that it matches nowhere |
| LeadDirective.Fields | netlify/functions/chat2.js:97 | the capture split on `\|` with each field trimmed; `LeadDirective.ThreeFields` and `LeadDirective.SingleFieldLead` state what it yields |
| LeadDirective.Interpret | netlify/functions/chat2.js:95-99 | a reply without the keyword is passed through trimmed; the keyword without a matching pattern is the error case; a captured lead is the trimmed fields of the leftmost match's capture, and the reply is the text with that match cut out, trimmed |
| LeadDirective.MatchHasKeyword | netlify/functions/chat2.js:95-96 | every match of the pattern contains the keyword that `includes` tests |
| LeadDirective.DirectiveRoundTrip | netlify/functions/chat2.js:95-99 | a three-field marker after text holding no `[LEAD_DATA: ` literal yields the lead of its trimmed fields, and the reply with only that marker cut out, trimmed |
| LeadDirective.ImageTagHoldsNoMarker | netlify/functions/chat2.js:77-78 | an `[IMAGE: url]` tag, as the system prompt asks for, holds no marker literal |
| LeadDirective.ImageThenLead | netlify/functions/chat2.js:95-99 | a reply that shows a product image before a three-field marker yields that marker's lead, and the reply with the image tag kept and the marker cut out, trimmed |
| LeadDirective.SingleFieldLead | netlify/functions/chat2.js:97 | a marker with one field yields a lead whose phone and interest are undefined |
| LeadDirective.MissingSpaceIsMalformed | netlify/functions/chat2.js:95-97 | the keyword without the space after its colon never matches, which is the error case |
| LeadDirective.UnclosedIsMalformed | netlify/functions/chat2.js:96-97 | a marker whose line ends before a closing bracket never matches, which is the error case |
| JsStrings.Includes | netlify/functions/chat2.js:95 | the scan answers true exactly when the pattern occurs somewhere |
| JsStrings.SplitJoin | netlify/functions/chat2.js:97 | splitting a joined list on a separator that no part contains gives the list back |
| JsStrings.LazyUntil | netlify/functions/chat2.js:96 | the lazy scan stops at the first delimiter reached without crossing a line terminator, and fails only when every delimiter lies beyond one |
| JsStrings.Trim | netlify/functions/chat2.js:97 | the result is an infix with whitespace-only margins and no whitespace at either end |
| MainChat.Handle | netlify/functions/chat2.js:35-121 | the status is 200 or 500, at most two provider calls are made, nothing is written without a provider call, every write belongs to the request's tenant and session, and every alert goes to the tenant's Telegram chat and reports the lead inserted just before it |
| MainChat.PostProcess | netlify/functions/chat2.js:94-115 | post-processing answers 200 or 500; every write belongs to the request, and every alert goes to the tenant's chat with the text of the lead inserted just before it |
| MainChat.Answer | netlify/functions/chat2.js:92-115 | past the gate, one or two provider calls, status 200 or 500, every write attributed to the request and every alert reporting the lead before it |
| MainChat.LeadEffects | netlify/functions/chat2.js:98-99 | a lead is inserted under the request's client, and an alert to the tenant's chat reports the lead inserted just before it |
| MainChat.Commit | netlify/functions/chat2.js:102-109 | the commit writes no alert, and its increment and turn pair belong to the request's client and session |
| MainChat.AlertText | netlify/functions/chat2.js:99 | the alert text; a missing phone or interest is rendered `undefined` as the template literal does; `MainChat.LeadEffects` and `MainChat.AfterLeadDelivered` state where it is sent |
| MainChat.NothingWrittenWithoutReply | netlify/functions/chat2.js:43-92 | a preflight, a failed configuration load, the quota stop or a failed failover write nothing |
| MainChat.NoDirectivePassesThrough | netlify/functions/chat2.js:95-115 | a reply without the keyword is returned and stored trimmed, with one increment and one turn pair and no lead or alert |
| MainChat.LeadCaptured | netlify/functions/chat2.js:95-115 | a well-formed marker after text holding no marker literal gives one lead insert, one alert when a channel is configured, then the commit of the cleaned reply, which is also returned |
| MainChat.MalformedLeadFails | netlify/functions/chat2.js:95-119 | a keyword the pattern does not match gives the generic 500 with no effect |
| MainChat.PostProcessCounts | netlify/functions/chat2.js:94-109 | a 200 commits exactly one increment and one turn pair, a failure commits none, and there is no alert without a channel |
| MainChat.UsageCountedOnce | netlify/functions/chat2.js:102-109 | over the whole handler, a written 200 increments usage exactly once, a non-200 never increments, and no alert is sent without a channel |
| MainChat.AlertFailureLosesReply | netlify/functions/chat2.js:26-33 | a Telegram request that rejects turns a captured lead into a 500 after the lead insert and the alert attempt |
| MainChat.ScenarioUnderLimit | netlify/functions/chat2.js:58-115 | a Lite tenant at 29 messages with a plain answer gets it unchanged, one turn pair is stored, and usage becomes 30 |
| MainChat.ScenarioAtLimit | netlify/functions/chat2.js:58-64 | the same tenant at 30 messages gets the limit text, and usage stays 30 |
| Router.Route | netlify/functions/chat.js:17-142 | the status is one of 200, 400, 405 and 500, at most one provider call is made, and no call or effect happens unless the method is POST, the body parses and the client is active |
| Router.MethodGate | netlify/functions/chat.js:19-38 | a preflight gets "OK" with the permissive headers; 405 is answered exactly for methods other than OPTIONS and POST |
| Router.ClientGate | netlify/functions/chat.js:45-54 | a failed lookup or an inactive client gets the 200 refusal with no call and no effect, and only such a client gets it |
| Router.ChatContext | netlify/functions/chat.js:57-81 | a chat request sends one call to the fixed model with the system line, the session's recent turns oldest first, and the user message, at most six messages |
| Router.ChatFallback | netlify/functions/chat.js:86-96 | an answer without content is replaced by the fallback text, which is returned and stored next to the user turn, with one usage increment |
| Router.ChatOutcome | netlify/functions/chat.js:69-102 | an answer with content is returned and stored unchanged; a provider that throws gives 500 with its message and nothing stored |
| Router.NotifyDispatch | netlify/functions/chat.js:106-133 | notify with a chat id and a token forwards the text and reports Telegram's `ok`; without them it gets 400 |
| Router.Chat | netlify/functions/chat.js:57-103 | the chat branch makes exactly one call to Groq with the router's model, and answers 200 or 500 |
| Router.Notify | netlify/functions/chat.js:106-127 | the notify branch makes no provider call and exactly one alert to the client's chat, and answers 200 exactly when Telegram answered |
| Router.InvalidTypeExactly | netlify/functions/chat.js:57-133 | past the gates, 400 is answered exactly when the type is neither chat nor a deliverable notify, with no call and no effect |
| Router.EnvValue | netlify/functions/chat.js:15 | an environment lookup finds the first variable of that name, and is absent iff none has it |
| Router.GroqKeys | netlify/functions/chat.js:8-12 | the pool holds exactly the values of variables whose names start with `GROQ_KEY_` |
| Router.GroqKeysSplit | netlify/functions/chat.js:8-12 | the pool keeps variable order: the keys of two runs of variables are those of the first run, then those of the second |
| Router.GroqKeysSingle | netlify/functions/chat.js:10-11 | one variable contributes its value exactly when its name starts with `GROQ_KEY_` |
| Router.PickIndex | netlify/functions/chat.js:60 | the drawn index is a valid index of a non-empty pool |
| Router.ChosenKey | netlify/functions/chat.js:60 | a key is chosen iff the pool is non-empty, and it is a pool member |
| Router.KeyFromPool | netlify/functions/chat.js:59-60 | the key on the Groq call comes from a `GROQ_KEY_` variable, and is undefined exactly when the pool is empty |
| Router.EveryKeyReachable | netlify/functions/chat.js:60 | every key of the pool is chosen for some random draw |
| Formatter.SkipSpace | widget.js:539 | the whitespace run is maximal: every skipped character is whitespace and the next one is not |
| Formatter.ImageHead | widget.js:539 | a match is the keyword, whitespace, then a url free of `]` and line terminators, closed by `]`; no match means the keyword is absent or no `]` follows the whitespace run before a line terminator |
| Formatter.ImagePass | widget.js:539-540 | the global image rewrite; `Formatter.ImagePassPlain`, `Formatter.ImagePassPrefix`, `Formatter.ImageOne` and `Formatter.ImageMarkerInText` state what it does |
| Formatter.ImageBacktrack | widget.js:539 | backtracking into the whitespace run never finds a match that the longest run misses, nor a different one |
| Formatter.ImageHeadExact | widget.js:539-540 | whatever whitespace prefix the regex settles on, the match is the one the scan computes |
| Formatter.ImagePassPlain | widget.js:539-540 | text without the image keyword passes the image rewrite unchanged |
| Formatter.ImagePassPrefix | widget.js:540 | text before the first `[` is copied by the image rewrite |
| Formatter.ImageOne | widget.js:539-540 | one image marker becomes one image tag carrying its url, and the rewrite resumes after the marker |
| Formatter.ImageMarkerInText | widget.js:539-540 | an image marker inside a longer text is rewritten in place |
| Formatter.StrongHead | widget.js:543 | a bold match opens with two stars and closes at the first later pair of stars, with no line terminator in between; when there is no match, the text does not open with two stars or no such closing pair exists |
| Formatter.StrongPass | widget.js:543 | the global bold rewrite; `Formatter.StrongPassPlain`, `Formatter.StrongPassPrefix`, `Formatter.StrongOne` and `Formatter.StrongSpanInText` state what it does |
| Formatter.StrongPassPlain | widget.js:543 | text without `**` passes the bold rewrite unchanged |
| Formatter.StrongPassPrefix | widget.js:543 | text before the first `*` is copied by the bold rewrite |
| Formatter.StrongOne | widget.js:543 | `**x**` with a star-free single-line `x` becomes one strong element |
| Formatter.StrongSpanInText | widget.js:543 | a bold span inside a longer text is rewritten in place |
| Formatter.NoStarNoBold | widget.js:543 | text without `*` holds no bold delimiter |
| Formatter.BreakPass | widget.js:545 | the newline rewrite leaves no newline |
| Formatter.Format | widget.js:538-545 | the three rewrites in order; `Formatter.FormatHasNoNewline`, `Formatter.FormatPlain` and `Formatter.FormatImageMessage` state what it shows |
| Formatter.BreakPassAppend | widget.js:545 | the newline rewrite distributes over concatenation |
| Formatter.BreakPassLines | widget.js:545 | each newline becomes exactly one `<br>` between the rewritten lines |
| Formatter.BreakPassPlain | widget.js:545 | text without a newline passes the newline rewrite unchanged |
| Formatter.FormatHasNoNewline | widget.js:538-545 | the formatted message contains no newline |
| Formatter.FormatPlain | widget.js:538-545 | text with no image keyword, no `**` and no newline is shown as it is |
| Formatter.FormatImageMessage | widget.js:538-545 | a message ending in an image marker shows its lead-in followed by the image tag |
| ChatWidget.ClientIdOf | widget.js:4 | a present, non-empty `data-id` is the client id, and the id is never empty |
| ChatWidget.Initial | widget.js:406-421 | the widget starts closed, before the chat, with no bubbles, empty input and the send button disabled, as the markup sets it |
| ChatWidget.ToggleChat | widget.js:439-440 | a toggle flips whether the window is open |
| ChatWidget.ToggleTwice | widget.js:440 | toggling twice restores the widget, and a toggle changes nothing but the open flag |
| ChatWidget.OnInput | widget.js:466-468 | the input listener keeps the send button disabled exactly when the trimmed input is empty |
| ChatWidget.SendEnabledIffContent | widget.js:467 | send is disabled exactly when every character of the input is whitespace |
| ChatWidget.SwitchToChatMode | widget.js:478-480 | the switch fires exactly when the chat had not started, and leaves it started |
| ChatWidget.SwitchOnce | widget.js:478-480 | a second switch neither fires nor changes anything |
| ChatWidget.HandleSend | widget.js:494-509 | corrected definition: a message is posted exactly when the trimmed input is not empty, under the session fixed at page load |
| ChatWidget.SendGuard | widget.js:494-509 | blank input changes nothing; otherwise the trimmed text is posted under the page's session (the corrected definition), the input cleared, send disabled, the chat started, and one user bubble added |
| ChatWidget.SentTextIsTrimmed | widget.js:495-496 | the posted message is non-empty and has no whitespace at either end |
| ChatWidget.ConsistencyPreserved | widget.js:466-501 | every handler keeps the send button disabled exactly when the input is blank |
| ChatWidget.AddMessage | widget.js:534-546 | a message appends exactly one bubble holding the formatted text |
| ChatWidget.ReceiveReply | widget.js:511-517 | every answer, or its failure, adds exactly one bubble |
| ChatWidget.ReplyShown | widget.js:511-517 | a failed request shows the demo text, a reply is shown formatted, and earlier bubbles stay |
| ChatWidget.HandleSendAsWritten | widget.js:509 | as written, the session id posted is taken from the clock at send time |
| ChatWidget.SessionsDiffer | widget.js:509 | sends at different milliseconds carry different session ids |
| ChatWidget.SecondSendForgetsFirst | widget.js:494-509 | as written, two sends at different milliseconds post different sessions, and storing the first exchange leaves the second send's history window unchanged |
| ChatWidget.SessionKept | widget.js:509 | with the session fixed per page, every handler keeps it and every send posts it |
| ChatWidget.NextSendSeesExchange | widget.js:509 | with the session fixed per page, the next message's history ends with the previous exchange |

## Left out

- Store queries, the provider and Telegram `fetch`es, and `JSON.parse`/`JSON.stringify` are foreign I/O. Their results are inputs (`Fetched`, `World`, `RouterWorld`), and their writes are the returned effects.
- `Promise.all` and concurrency: the concurrent writes are listed in source order. Races between requests of one session or one tenant are not modelled.
- `Math.random`, `Date.now()` and today's date are inputs. The random draw is a real in [0, 1). The usage row is already the row of the day.
- The `temperature` values and the request headers sent to providers are not modelled; they are opaque pass-through values.
- A request field that is `undefined` in a position other than those modelled is not modelled. This covers `session_id`, `message` and `notification_text`, which the template literals and JSON encoding would render or drop. `Show` models `undefined` only for the alert's lead fields.
- Product prices and image references are carried as their rendered text.
- A provider `content` or a widget `reply` that is a non-string truthy value is not modelled. Contents are strings, and a non-string widget reply is treated like a missing one.
- The widget's DOM, CSS, timers, animations, typing indicator, toast, auto-resize and the Enter-key binding are not modelled; they are UI. The Enter key calls the same `handleSend`.
- No claim is made about what the providers answer.
- MainChat.Handle: gates with the corrected ceiling. For plans named like an inherited object property (`toString`, ...) the code as written never stops the tenant; the handler does from the ceiling on. `Quota.InheritedPlanIsUnlimited` records the code's behaviour, and `MainChat.QuotaAsWritten` shows the two agree for every other plan.
- MainChat.QuotaShortCircuits: is stated over the corrected ceiling, so for inherited-property plan names it claims a stop that the code as written never makes.
- ChatWidget.HandleSend: posts the session fixed at page load, where the code as written posts `'sess_' + Date.now()` at send time. `ChatWidget.HandleSendAsWritten` models the code as written.
- ChatWidget.SendGuard: states the posted session over the corrected `HandleSend`, for the same reason.
- MainChat.ScenarioUnderLimit: the provider's answer is any text without `[` and without surrounding whitespace, such as "Welcome! How can I help?". It is not that literal string, because a verification that unfolds the handler on a literal reply is too costly.

## Findings

| source | as written | input that shows it | evidently intended | confidence | as-written member | corrected member |
|---|---|---|---|---|---|---|
| netlify/functions/chat2.js:61-62 | `limits[plan] \|\| 30` reads a plain object, so a plan named like an inherited property (`toString`, `constructor`, ...) yields a function, and `currentUsage >= function` is false | plan `toString`, usage 1000: the limit reply is never given | plans outside the table are held to the default ceiling of 30 | low; not executed | Quota.InheritedPlanIsUnlimited | Quota.GateAlwaysBounded |
| widget.js:509 | `session_id: 'sess_' + Date.now()` is computed on every send, so each message opens a new session | sends at ms 1000 and 2000 post `sess_1000` and `sess_2000`; the second request's history window is empty | one session per page, so the next message sees the previous exchange | medium; not executed | ChatWidget.SecondSendForgetsFirst | ChatWidget.NextSendSeesExchange |

=== FILE: failover.dfy ===
/**
  The completion dispatcher of `callAIWithFailover`: providers are tried
  strictly in list order, and the first one whose response carries a
  non-empty `choices[0].message.content` wins. A provider that throws or
  answers without content only advances the loop.
 */
module Failover {

  import opened Optional

  /** What one provider call yields: the fetch or JSON decoding threw, the
      response had no `choices[0].message.content`, or it had this content. */
  datatype Outcome = Throw(message: string) | NoContent | Content(text: string)

  /** The source tests the content for truthiness, so an empty string does not count. */
  predicate Yields(o: Outcome) {
    o.Content? && o.text != ""
  }

  datatype Provider = Provider(name: string, model: string, url: string, key: Option<string>)

  /** How many providers were invoked, and the reply if one yielded. */
  datatype Dispatched = Dispatched(invoked: nat, reply: Option<string>)

  /** The failover loop over the outcomes the providers would give, in order. */
  function Dispatch(outcomes: seq<Outcome>): (d: Dispatched)
    ensures d.invoked <= |outcomes|
    ensures d.reply.Some? <==> exists j :: 0 <= j < |outcomes| && Yields(outcomes[j])
    ensures d.reply.Some? ==> 0 < d.invoked && Yields(outcomes[d.invoked - 1]) && d.reply.value == outcomes[d.invoked - 1].text
    ensures d.reply.None? ==> d.invoked == |outcomes|
    ensures forall j :: 0 <= j < d.invoked && d.reply.Some? ==> (Yields(outcomes[j]) <==> j == d.invoked - 1)
  {
    if |outcomes| == 0 then Dispatched(0, None)
    else if Yields(outcomes[0]) then Dispatched(1, Some(outcomes[0].text))
    else
      var d := Dispatch(outcomes[1..]);
      assert forall j :: 1 <= j < |outcomes| ==> outcomes[j] == outcomes[1..][j - 1];
      Dispatched(d.invoked + 1, d.reply)
  }

  /** The source's `for (let provider of providers)` loop: returns the
      providers actually called, a prefix of the list, and the first
      non-empty content. */
  method RunFailover(providers: seq<Provider>, outcomes: seq<Outcome>) returns (called: seq<Provider>, reply: Option<string>)
    requires |outcomes| == |providers|
    ensures |called| <= |providers| && called == providers[..|called|]
    ensures reply.Some? ==> 0 < |called| && Yields(outcomes[|called| - 1]) && reply.value == outcomes[|called| - 1].text
    ensures forall j :: 0 <= j < |called| - 1 ==> !Yields(outcomes[j])
    ensures reply.None? ==> called == providers && forall j :: 0 <= j < |outcomes| ==> !Yields(outcomes[j])
    ensures Dispatch(outcomes) == Dispatched(|called|, reply)
  {
    called := [];
    var i := 0;
    while i < |providers|
      invariant 0 <= i <= |providers|
      invariant called == providers[..i]
      invariant forall j :: 0 <= j < i ==> !Yields(outcomes[j])
    {
      called := called + [providers[i]];
      if Yields(outcomes[i]) {
        reply := Some(outcomes[i].text);
        DispatchFirst(outcomes, i);
        return;
      }
      i := i + 1;
    }
    reply := None;
  }

  /** The dispatch result is determined by the first yielding outcome. */
  lemma DispatchFirst(outcomes: seq<Outcome>, i: nat)
    requires i < |outcomes| && Yields(outcomes[i])
    requires forall j :: 0 <= j < i ==> !Yields(outcomes[j])
    ensures Dispatch(outcomes) == Dispatched(i + 1, Some(outcomes[i].text))
  {
    var d := Dispatch(outcomes);
    assert d.reply.Some?;
  }

  /** Scenario: provider 1 fails, provider 2 answers, provider 3 is never asked. */
  lemma SecondProviderAnswers(failure: Outcome, text: string, third: Outcome)
    requires !Yields(failure) && text != ""
    ensures Dispatch([failure, Content(text), third]) == Dispatched(2, Some(text))
  {
    DispatchFirst([failure, Content(text), third], 1);
  }
}

=== FILE: formatter.dfy ===
/**
  The widget's message formatter (`addMessage`): three global regex
  rewrites applied in order, `[IMAGE: url]` to an image tag, `**x**` to a
  strong element, and every newline to `<br>`. Each pass is a scan over the
  text that, like `String.prototype.replace` with a global regex, either
  rewrites a match starting at the current position and resumes after it,
  or copies one character and moves on.
 */
module Formatter {

  import opened Optional
  import opened JsStrings

  const ImageOpen: string := "[IMAGE:"
  const Bold: string := "**"

  /** A match anchored at the start of the text: the capture is
      `s[start..stop]`, and the closing delimiter begins at `stop`. */
  datatype Hit = Hit(start: nat, stop: nat)

  /** The greedy `\s*` started at `j`: the first index that is not whitespace. */
  function SkipSpace(s: string, j: nat): (k: nat)
    requires j <= |s|
    ensures j <= k <= |s|
    ensures forall m :: j <= m < k ==> IsJsSpace(s[m])
    ensures k == |s| || !IsJsSpace(s[k])
    decreases |s| - j
  {
    if j < |s| && IsJsSpace(s[j]) then SkipSpace(s, j + 1) else j
  }

  // ------------------------------------------------------------ image pass

  /** The image pattern at the start of `s`: the keyword, the longest
      whitespace run, then the shortest run of non-terminators up to `]`. */
  function ImageHead(s: string): (r: Option<Hit>)
    ensures r.Some? ==> |ImageOpen| <= r.value.start <= r.value.stop < |s| && s[r.value.stop] == ']'
    ensures r.Some? ==> forall m :: |ImageOpen| <= m < r.value.start ==> IsJsSpace(s[m])
    ensures r.Some? ==> forall m :: r.value.start <= m < r.value.stop ==> s[m] != ']' && !IsLineTerminator(s[m])
    ensures r.None? ==> !OccursAt(s, ImageOpen, 0) || forall k :: !LazyStop(s, SkipSpace(s, |ImageOpen|), "]", k)
  {
    if OccursAt(s, ImageOpen, 0) then
      var j := SkipSpace(s, |ImageOpen|);
      match LazyUntil(s, j, "]")
      case Some(k) =>
        LazyCloseClean(s, j, k);
        Some(Hit(j, k))
      case None => None
    else None
  }

  /** The text a lazy scan up to `]` crosses holds no `]` and no line terminator. */
  lemma LazyCloseClean(s: string, j: nat, k: nat)
    requires LazyStop(s, j, "]", k)
    ensures s[k] == ']'
    ensures forall m :: j <= m < k ==> s[m] != ']' && !IsLineTerminator(s[m])
  {
    assert s[k..k + 1][0] == s[k];
    forall m | j <= m < k ensures s[m] != ']' {
      assert !OccursAt(s, "]", m);
      assert s[m..m + 1] == [s[m]];
    }
  }

  function ImageTag(url: string): string {
    "<img src=\"" + url + "\" class=\"qgent-img\">"
  }

  /** `text.replace(imgRegex, (m, url) => <img ...>)`. */
  function ImagePass(s: string): string
    decreases |s|
  {
    if |s| == 0 then []
    else
      match ImageHead(s)
      case Some(h) => ImageTag(s[h.start..h.stop]) + ImagePass(s[h.stop + 1..])
      case None => [s[0]] + ImagePass(s[1..])
  }

  // ----------------------------------------------------------- strong pass

  /** The bold pattern (two stars, the shortest run of non-terminators,
      two stars) at the start of `s`. */
  function StrongHead(s: string): (r: Option<Hit>)
    ensures r.Some? ==> OccursAt(s, Bold, 0) && r.value.start == |Bold| <= r.value.stop
    ensures r.Some? ==> r.value.stop + |Bold| <= |s| && OccursAt(s, Bold, r.value.stop)
    ensures r.Some? ==> forall m :: r.value.start <= m < r.value.stop ==> !OccursAt(s, Bold, m) && !IsLineTerminator(s[m])
    ensures r.None? ==> !OccursAt(s, Bold, 0) || forall k :: !LazyStop(s, |Bold|, Bold, k)
  {
    if OccursAt(s, Bold, 0) then
      match LazyUntil(s, |Bold|, Bold)
      case Some(k) => Some(Hit(|Bold|, k))
      case None => None
    else None
  }

  /** The global bold rewrite to `<strong>$1</strong>`. */
  function StrongPass(s: string): string
    decreases |s|
  {
    if |s| == 0 then []
    else
      match StrongHead(s)
      case Some(h) => "<strong>" + s[h.start..h.stop] + "</strong>" + StrongPass(s[h.stop + |Bold|..])
      case None => [s[0]] + StrongPass(s[1..])
  }

  // ------------------------------------------------------------ break pass

  /** The global newline rewrite to `<br>`. */
  function BreakPass(s: string): (r: string)
    ensures '\n' !in r
  {
    if |s| == 0 then []
    else (if s[0] == '\n' then "<br>" else [s[0]]) + BreakPass(s[1..])
  }

  /** The HTML `addMessage` puts into a message bubble. */
  function Format(text: string): string {
    BreakPass(StrongPass(ImagePass(text)))
  }

  // ---------------------------------------------------------------- lemmas

  /** Backtracking into `\s*` never helps: when the lazy scan succeeds from
      any shorter whitespace prefix, it succeeds from the longest one too,
      and at the same `]`. */
  lemma {:induction false} ImageBacktrack(s: string, j: nat, jmax: nat)
    requires j <= jmax <= |s|
    requires forall m :: j <= m < jmax ==> IsJsSpace(s[m])
    requires LazyUntil(s, j, "]").Some?
    ensures LazyUntil(s, jmax, "]") == LazyUntil(s, j, "]")
    decreases jmax - j
  {
    if j < jmax {
      assert s[j..j + 1] == [s[j]];
      assert !OccursAt(s, "]", j);
      ImageBacktrack(s, j + 1, jmax);
    }
  }

  /** Whatever whitespace prefix the regex engine settles on, the match it
      finds is the one `ImageHead` computes. */
  lemma ImageHeadExact(s: string, w: nat)
    requires OccursAt(s, ImageOpen, 0)
    requires |ImageOpen| <= w <= SkipSpace(s, |ImageOpen|)
    requires LazyUntil(s, w, "]").Some?
    ensures ImageHead(s) == Some(Hit(SkipSpace(s, |ImageOpen|), LazyUntil(s, w, "]").value))
  {
    ImageBacktrack(s, w, SkipSpace(s, |ImageOpen|));
  }

  /** Text without the image keyword passes unchanged. */
  lemma {:induction false} ImagePassPlain(s: string)
    requires forall i :: !OccursAt(s, ImageOpen, i)
    ensures ImagePass(s) == s
    decreases |s|
  {
    if |s| > 0 {
      forall i | 0 <= i ensures !OccursAt(s[1..], ImageOpen, i) {
        OccursShift(s, ImageOpen, i);
      }
      ImagePassPlain(s[1..]);
    }
  }

  /** Text before the first `[` is copied as it is. */
  lemma {:induction false} ImagePassPrefix(u: string, t: string)
    requires '[' !in u
    ensures ImagePass(u + t) == u + ImagePass(t)
    decreases |u|
  {
    if |u| > 0 {
      ImagePassCopy(u + t);
      assert (u + t)[1..] == u[1..] + t;
      ImagePassPrefix(u[1..], t);
      ConsAppend(u, ImagePass(t));
    } else {
      assert u + t == t;
    }
  }

  /** A first character that cannot open a match is copied. */
  lemma ImagePassCopy(s: string)
    requires |s| > 0 && s[0] != '['
    ensures ImagePass(s) == [s[0]] + ImagePass(s[1..])
  {
    if |ImageOpen| <= |s| {
      assert s[..|ImageOpen|][0] == s[0];
    }
    ImagePassSkip(s);
  }

  lemma ImagePassSkip(s: string)
    requires |s| > 0 && ImageHead(s).None?
    ensures ImagePass(s) == [s[0]] + ImagePass(s[1..])
  {
  }

  /** One well-formed image marker becomes one image tag carrying its url,
      and the scan resumes right after the marker. */
  lemma ImageOne(w: string, url: string, v: string)
    requires forall m :: 0 <= m < |w| ==> IsJsSpace(w[m])
    requires url == [] || !IsJsSpace(url[0])
    requires ']' !in url && forall m :: 0 <= m < |url| ==> !IsLineTerminator(url[m])
    ensures ImagePass(ImageOpen + w + url + "]" + v) == ImageTag(url) + ImagePass(v)
  {
    MarkerPieces(ImageOpen, w, url, v);
    ImageHeadAt(ImageOpen + w + url + "]" + v, |ImageOpen| + |w|, |ImageOpen| + |w| + |url|);
    ImageAt(ImageOpen + w + url + "]" + v, url, v);
  }

  /** A match capturing `url` and followed by `v` is rewritten, and the
      scan resumes on `v`. */
  lemma ImageAt(s: string, url: string, v: string)
    requires |s| > 0 && ImageHead(s).Some?
    requires s[ImageHead(s).value.start..ImageHead(s).value.stop] == url
    requires s[ImageHead(s).value.stop + 1..] == v
    ensures ImagePass(s) == ImageTag(url) + ImagePass(v)
  {
    ImagePassStep(s);
  }

  /** The match the scan finds when the spaces end at `j` and the url at `k`. */
  lemma ImageHeadAt(s: string, j: nat, k: nat)
    requires |ImageOpen| <= j <= k < |s| && s[..|ImageOpen|] == ImageOpen
    requires forall m :: |ImageOpen| <= m < j ==> IsJsSpace(s[m])
    requires !IsJsSpace(s[j]) && s[k] == ']'
    requires forall m :: j <= m < k ==> s[m] != ']' && !IsLineTerminator(s[m])
    ensures ImageHead(s).Some? && ImageHead(s).value.start == j && ImageHead(s).value.stop == k
  {
    SkipSpaceStops(s, |ImageOpen|, j);
    forall m | j <= m < k ensures !OccursAt(s, "]", m) {
      assert s[m..m + 1] == [s[m]];
    }
    assert s[k..k + 1] == "]";
    LazyUntilUnique(s, j, "]", k);
  }

  /** One step of the image scan at a match. */
  lemma ImagePassStep(s: string)
    requires |s| > 0 && ImageHead(s).Some?
    ensures ImagePass(s) == ImageTag(s[ImageHead(s).value.start..ImageHead(s).value.stop]) + ImagePass(s[ImageHead(s).value.stop + 1..])
  {
  }

  /** How `p + w + url + "]" + v` splits into its pieces. */
  lemma MarkerPieces(p: string, w: string, url: string, v: string)
    ensures var s := p + w + url + "]" + v;
      var j := |p| + |w|;
      var k := j + |url|;
      && |s| == k + 1 + |v|
      && s[..|p|] == p && s[j..k] == url && s[k] == ']' && s[k + 1..] == v
      && (forall m :: |p| <= m < j ==> s[m] == w[m - |p|])
      && (forall m :: j <= m < k ==> s[m] == url[m - j])
  {
    var s := p + w + url + "]" + v;
    var j := |p| + |w|;
    assert s == (p + w) + url + ("]" + v);
    SliceOfPieces(p + w, url, "]" + v);
  }

  /** `SkipSpace` from `i` stops at `j` when the run between is whitespace
      and `j` is not. */
  lemma {:induction false} SkipSpaceStops(s: string, i: nat, j: nat)
    requires i <= j <= |s|
    requires forall m :: i <= m < j ==> IsJsSpace(s[m])
    requires j == |s| || !IsJsSpace(s[j])
    ensures SkipSpace(s, i) == j
    decreases j - i
  {
    if i < j {
      SkipSpaceStops(s, i + 1, j);
    }
  }

  /** Text without the bold delimiter passes unchanged. */
  lemma {:induction false} StrongPassPlain(s: string)
    requires forall i :: !OccursAt(s, Bold, i)
    ensures StrongPass(s) == s
    decreases |s|
  {
    if |s| > 0 {
      forall i | 0 <= i ensures !OccursAt(s[1..], Bold, i) {
        OccursShift(s, Bold, i);
      }
      StrongPassPlain(s[1..]);
    }
  }

  /** Text without `*` contains no bold delimiter. */
  lemma NoStarNoBold(s: string)
    requires '*' !in s
    ensures forall i :: !OccursAt(s, Bold, i)
  {
    forall i ensures !OccursAt(s, Bold, i) {
      if 0 <= i && i + |Bold| <= |s| {
        assert s[i..i + |Bold|][0] == s[i] && s[i] in s;
      }
    }
  }

  /** Text before the first `*` is copied as it is. */
  lemma {:induction false} StrongPassPrefix(u: string, t: string)
    requires '*' !in u
    ensures StrongPass(u + t) == u + StrongPass(t)
    decreases |u|
  {
    if |u| > 0 {
      StrongPassCopy(u + t);
      assert (u + t)[1..] == u[1..] + t;
      StrongPassPrefix(u[1..], t);
      ConsAppend(u, StrongPass(t));
    } else {
      assert u + t == t;
    }
  }

  /** A first character that cannot open a match is copied. */
  lemma StrongPassCopy(s: string)
    requires |s| > 0 && s[0] != '*'
    ensures StrongPass(s) == [s[0]] + StrongPass(s[1..])
  {
    if |Bold| <= |s| {
      assert s[..|Bold|][0] == s[0];
    }
    StrongPassSkip(s);
  }

  lemma StrongPassSkip(s: string)
    requires |s| > 0 && StrongHead(s).None?
    ensures StrongPass(s) == [s[0]] + StrongPass(s[1..])
  {
  }

  /** One `**x**` with a star-free single-line `x` becomes one strong element. */
  lemma StrongOne(x: string, v: string)
    requires '*' !in x && forall m :: 0 <= m < |x| ==> !IsLineTerminator(x[m])
    ensures StrongPass(Bold + x + Bold + v) == "<strong>" + x + "</strong>" + StrongPass(v)
  {
    var s := Bold + x + Bold + v;
    var k := |Bold| + |x|;
    assert s[..2] == Bold;
    assert OccursAt(s, Bold, 0);
    forall m | |Bold| <= m < k ensures s[m] == x[m - |Bold|] && !OccursAt(s, Bold, m) {
      assert s[m..m + 2][0] == s[m];
    }
    assert s[k..k + 2] == Bold;
    LazyUntilUnique(s, |Bold|, Bold, k);
    assert StrongHead(s) == Some(Hit(|Bold|, k));
    assert s[|Bold|..k] == x;
    assert s[k + |Bold|..] == v;
  }

  /** The break pass distributes over concatenation. */
  lemma {:induction false} BreakPassAppend(a: string, b: string)
    ensures BreakPass(a + b) == BreakPass(a) + BreakPass(b)
    decreases |a|
  {
    if |a| == 0 {
      assert a + b == b;
    } else {
      assert (a + b)[1..] == a[1..] + b;
      BreakPassAppend(a[1..], b);
    }
  }

  /** Each newline becomes exactly one `<br>`, and the lines are kept. */
  lemma BreakPassLines(a: string, b: string)
    ensures BreakPass(a + "\n" + b) == BreakPass(a) + "<br>" + BreakPass(b)
  {
    BreakPassAppend(a + "\n", b);
    BreakPassAppend(a, "\n");
  }

  /** Text without a newline passes the break pass unchanged. */
  lemma {:induction false} BreakPassPlain(s: string)
    requires '\n' !in s
    ensures BreakPass(s) == s
    decreases |s|
  {
    if |s| > 0 {
      BreakPassPlain(s[1..]);
    }
  }

  /** Formatted text never contains a newline. */
  lemma FormatHasNoNewline(text: string)
    ensures '\n' !in Format(text)
  {
  }

  /** Text with no image keyword, no `**` and no newline is shown as it is. */
  lemma FormatPlain(text: string)
    requires forall i :: !OccursAt(text, ImageOpen, i)
    requires forall i :: !OccursAt(text, Bold, i)
    requires '\n' !in text
    ensures Format(text) == text
  {
    ImagePassPlain(text);
    StrongPassPlain(text);
    BreakPassPlain(text);
  }

  /** The image tag adds no star and no newline of its own. */
  lemma ImageTagClean(url: string)
    requires '*' !in url && '\n' !in url
    ensures '*' !in ImageTag(url) && '\n' !in ImageTag(url)
  {
  }

  /** A message that is one image marker (after a `[`-free lead-in) shows
      the lead-in followed by the image. */
  lemma FormatImageMessage(u: string, w: string, url: string)
    requires '[' !in u && '*' !in u && '\n' !in u
    requires forall m :: 0 <= m < |w| ==> IsJsSpace(w[m])
    requires url == [] || !IsJsSpace(url[0])
    requires ']' !in url && '*' !in url && forall m :: 0 <= m < |url| ==> !IsLineTerminator(url[m])
    ensures Format(u + (ImageOpen + w + url + "]")) == u + ImageTag(url)
  {
    var marker := ImageOpen + w + url + "]";
    ImagePassPrefix(u, marker);
    ImageOne(w, url, []);
    assert marker + [] == marker;
    var out := u + ImageTag(url);
    assert ImagePass(u + marker) == out;
    ImageTagClean(url);
    assert '*' !in out && '\n' !in out;
    NoStarNoBold(out);
    StrongPassPlain(out);
    BreakPassPlain(out);
  }

  /** Inside a longer text, an image marker after a `[`-free lead-in is
      rewritten in place and the rest of the text is scanned on. */
  lemma ImageMarkerInText(u: string, w: string, url: string, v: string)
    requires '[' !in u
    requires forall m :: 0 <= m < |w| ==> IsJsSpace(w[m])
    requires url == [] || !IsJsSpace(url[0])
    requires ']' !in url && forall m :: 0 <= m < |url| ==> !IsLineTerminator(url[m])
    ensures ImagePass(u + (ImageOpen + w + url + "]" + v)) == u + ImageTag(url) + ImagePass(v)
  {
    var marker := ImageOpen + w + url + "]" + v;
    ImagePassPrefix(u, marker);
    ImageOne(w, url, v);
    Reassociate(u, ImageTag(url), ImagePass(v));
  }

  /** Inside a longer text, a bold span after a `*`-free lead-in is
      rewritten in place and the rest of the text is scanned on. */
  lemma StrongSpanInText(u: string, x: string, v: string)
    requires '*' !in u
    requires '*' !in x && forall m :: 0 <= m < |x| ==> !IsLineTerminator(x[m])
    ensures StrongPass(u + (Bold + x + Bold + v)) == u + "<strong>" + x + "</strong>" + StrongPass(v)
  {
    var span := Bold + x + Bold + v;
    StrongPassPrefix(u, span);
    StrongOne(x, v);
    Reassociate(u, "<strong>" + x + "</strong>", StrongPass(v));
    assert u + ("<strong>" + x + "</strong>") == u + "<strong>" + x + "</strong>";
  }

  /** The middle piece of a concatenation is the slice between the other two. */
  lemma SliceOfPieces(a: string, b: string, c: string)
    ensures (a + b + c)[|a|..|a| + |b|] == b
  {
  }

  /** Splitting off the first character commutes with appending. */
  lemma ConsAppend(u: string, x: string)
    requires |u| > 0
    ensures [u[0]] + (u[1..] + x) == u + x
  {
    assert u == [u[0]] + u[1..];
  }

  lemma Reassociate(a: string, b: string, c: string)
    ensures a + (b + c) == a + b + c
  {
  }
}

=== FILE: history.dfy ===
/**
  The conversation log and the bounded context window both handlers build
  from it: the store query "turns of this session, newest first, at most
  four", its reversal into chronological order, and the message sequence
  system prompt, window, user message.
 */
module History {

  import opened Optional

  /** One chat-completion message, `{role, content}`. */
  datatype Message = Message(role: string, content: string)

  /** A row of the `conversations` table; the log is kept in `created_at` order. */
  datatype StoredTurn = StoredTurn(clientId: string, sessionId: string, role: string, content: string)

  /** The `.limit(4)` of the history query. */
  const HistoryLimit: nat := 4

  function Min(a: nat, b: nat): nat { if a <= b then a else b }

  function Reverse<T>(s: seq<T>): (r: seq<T>)
    ensures |r| == |s|
    ensures forall i :: 0 <= i < |s| ==> r[i] == s[|s| - 1 - i]
  {
    if |s| == 0 then [] else Reverse(s[1..]) + [s[0]]
  }

  /** The rows of the log that belong to `session`, in log order
      (the query filters on `session_id` only, not on the tenant). */
  function SessionTurns(log: seq<StoredTurn>, session: string): (r: seq<StoredTurn>)
    ensures |r| <= |log|
    ensures forall k :: 0 <= k < |r| ==> r[k].sessionId == session && r[k] in log
    ensures forall t :: t in log && t.sessionId == session ==> t in r
  {
    if |log| == 0 then []
    else if log[0].sessionId == session then [log[0]] + SessionTurns(log[1..], session)
    else SessionTurns(log[1..], session)
  }

  /** Filtering keeps log order: the session's rows of a log split in two
      are those of the first part followed by those of the second. */
  lemma {:induction false} SessionTurnsSplit(a: seq<StoredTurn>, b: seq<StoredTurn>, session: string)
    ensures SessionTurns(a + b, session) == SessionTurns(a, session) + SessionTurns(b, session)
    decreases |a|
  {
    if |a| == 0 {
      assert a + b == b;
    } else {
      assert (a + b)[0] == a[0];
      assert (a + b)[1..] == a[1..] + b;
      SessionTurnsSplit(a[1..], b, session);
    }
  }

  /** A single row is kept exactly when it belongs to the session. */
  lemma SessionTurnsSingle(t: StoredTurn, session: string)
    ensures SessionTurns([t], session) == if t.sessionId == session then [t] else []
  {
    assert [t][1..] == [];
  }

  /** The store query: this session's turns ordered by `created_at`
      descending, limited to four rows. */
  function RecentQuery(log: seq<StoredTurn>, session: string): (r: seq<StoredTurn>)
    ensures |r| == Min(HistoryLimit, |SessionTurns(log, session)|)
    ensures forall k :: 0 <= k < |r| ==> r[k] == SessionTurns(log, session)[|SessionTurns(log, session)| - 1 - k]
  {
    var t := SessionTurns(log, session);
    Reverse(t)[..Min(HistoryLimit, |t|)]
  }

  /** The history query against a log that may be unavailable. */
  function RecentFetch(conversations: Option<seq<StoredTurn>>, session: string): Option<seq<StoredTurn>> {
    match conversations
    case None => None
    case Some(log) => Some(RecentQuery(log, session))
  }

  function ToMessage(t: StoredTurn): Message { Message(t.role, t.content) }

  /** `(history || []).reverse().map(h => ({role, content}))`: a failed
      query (no data) contributes no history. */
  function HistoryWindow(fetched: Option<seq<StoredTurn>>): (w: seq<Message>)
    ensures fetched.None? ==> w == []
    ensures fetched.Some? ==> |w| == |fetched.value|
    ensures fetched.Some? ==> forall k :: 0 <= k < |w| ==> w[k] == ToMessage(fetched.value[|w| - 1 - k])
  {
    match fetched
    case None => []
    case Some(rows) => var rev := Reverse(rows); seq(|rev|, k requires 0 <= k < |rev| => ToMessage(rev[k]))
  }

  /** The completion request's messages: system prompt, history, user message. */
  function Assemble(system: string, window: seq<Message>, user: string): (m: seq<Message>)
    ensures |m| == |window| + 2
    ensures m[0] == Message("system", system) && m[|m| - 1] == Message("user", user)
    ensures m[1..|m| - 1] == window
  {
    [Message("system", system)] + window + [Message("user", user)]
  }

  /** The most recent (at most four) turns of the session, oldest first,
      as messages: the reference the window is checked against. */
  function RecentChronological(log: seq<StoredTurn>, session: string): seq<Message>
  {
    var t := SessionTurns(log, session);
    var tail := t[|t| - Min(HistoryLimit, |t|)..];
    seq(|tail|, k requires 0 <= k < |tail| => ToMessage(tail[k]))
  }

  /** Reversing the newest-first query result yields the session's last
      four turns in chronological order. */
  lemma WindowIsRecentSuffix(log: seq<StoredTurn>, session: string)
    ensures HistoryWindow(Some(RecentQuery(log, session))) == RecentChronological(log, session)
  {
    var t := SessionTurns(log, session);
    var q := RecentQuery(log, session);
    var n := Min(HistoryLimit, |t|);
    var w := HistoryWindow(Some(q));
    var e := RecentChronological(log, session);
    assert |w| == n == |e|;
    forall k | 0 <= k < n ensures w[k] == e[k] {
      assert w[k] == ToMessage(q[n - 1 - k]);
      assert q[n - 1 - k] == t[|t| - 1 - (n - 1 - k)];
    }
  }

  /** The context sent to a provider: never more than six messages, the
      system prompt first, the user message last, and in between the
      session's most recent turns in chronological order. */
  lemma ContextBounded(log: seq<StoredTurn>, session: string, system: string, user: string)
    ensures var m := Assemble(system, HistoryWindow(Some(RecentQuery(log, session))), user);
      && 2 <= |m| <= HistoryLimit + 2
      && m[0] == Message("system", system)
      && m[|m| - 1] == Message("user", user)
      && m[1..|m| - 1] == RecentChronological(log, session)
  {
    WindowIsRecentSuffix(log, session);
  }
}

=== FILE: http.dfy ===
/**
  What a handler invocation produces once its I/O is made explicit: the HTTP
  response, the provider calls it issued (in order), and the writes and
  notifications it issued (in order).
 */
module Http {

  import opened Optional
  import opened History
  import opened LeadDirective

  /** The response bodies the handlers produce. */
  datatype Body =
    | Text(text: string)                                  // "OK" to a preflight
    | ReplyJson(reply: string)                            // {reply}
    | ErrorJson(error: string, details: Option<string>)   // {error} or {error, details}
    | SuccessJson(ok: Option<bool>)                       // {success}; an absent `ok` is dropped

  datatype Response = Response(status: nat, headers: seq<(string, string)>, body: Body)

  /** The store writes and the notification a handler issues. */
  datatype Effect =
    | IncrementUsage(clientId: string)
    | InsertTurns(clientId: string, sessionId: string, userText: string, assistantText: string)
    | InsertLead(clientId: string, lead: Lead)
    | SendAlert(chatId: string, text: string)

  /** One chat-completion request: endpoint, model, bearer key, messages. */
  datatype ProviderCall = ProviderCall(url: string, model: string, key: Option<string>, messages: seq<Message>)

  datatype Handled = Handled(response: Response, calls: seq<ProviderCall>, effects: seq<Effect>)

  /** JavaScript truthiness of an optional string: present and non-empty. */
  predicate Truthy(o: Option<string>) {
    o.Some? && o.value != ""
  }

  /** The number of effects of one kind. */
  function Count(effects: seq<Effect>, isKind: Effect -> bool): (n: nat)
    ensures n <= |effects|
    ensures n == 0 <==> forall k :: 0 <= k < |effects| ==> !isKind(effects[k])
  {
    if |effects| == 0 then 0
    else (if isKind(effects[0]) then 1 else 0) + Count(effects[1..], isKind)
  }

  predicate IsIncrement(e: Effect) { e.IncrementUsage? }
  predicate IsTurnInsert(e: Effect) { e.InsertTurns? }
  predicate IsAlert(e: Effect) { e.SendAlert? }

  lemma {:induction false} CountAppend(xs: seq<Effect>, ys: seq<Effect>, isKind: Effect -> bool)
    ensures Count(xs + ys, isKind) == Count(xs, isKind) + Count(ys, isKind)
  {
    if xs == [] {
      assert xs + ys == ys;
    } else {
      assert (xs + ys)[1..] == xs[1..] + ys;
      CountAppend(xs[1..], ys, isKind);
    }
  }

  /** The usage counter after a handler's increments are applied. */
  function UsageAfter(usage: int, effects: seq<Effect>): int {
    usage + Count(effects, IsIncrement)
  }
}

=== FILE: js_strings.dfy ===
/**
  The fragments of JavaScript string semantics the chat handlers and the widget
  rely on: the whitespace and line-terminator classes of ECMAScript regular
  expressions, `String.prototype.trim`, `includes`, `split` on a one-character
  separator, and the lazy `(.*?)X` scan that every directive pattern uses.
 */
module JsStrings {

  import opened Optional

  /** The characters a regex `.` refuses (ECMAScript LineTerminator). */
  predicate IsLineTerminator(c: char) {
    c == '\n' || c == '\r' || c == '\U{2028}' || c == '\U{2029}'
  }

  /** The class `\s` matches, which is also the set `trim` removes
      (ECMAScript WhiteSpace plus LineTerminator). */
  predicate IsJsSpace(c: char) {
    || IsLineTerminator(c)
    || c == ' ' || c == '\t' || c == '\U{B}' || c == '\U{C}'
    || c == '\U{A0}' || c == '\U{1680}'
    || ('\U{2000}' <= c <= '\U{200A}')
    || c == '\U{202F}' || c == '\U{205F}' || c == '\U{3000}' || c == '\U{FEFF}'
  }

  ghost predicate AllSpace(s: string) {
    forall i :: 0 <= i < |s| ==> IsJsSpace(s[i])
  }

  // ---------------------------------------------------------------- trim

  /** Drops leading whitespace; the result is the suffix that starts at the
      first non-space character. */
  function TrimStart(s: string): (r: string)
    ensures |r| <= |s| && r == s[|s| - |r|..]
    ensures AllSpace(s[..|s| - |r|])
    ensures r == [] || !IsJsSpace(r[0])
    decreases |s|
  {
    if |s| > 0 && IsJsSpace(s[0]) then
      var r := TrimStart(s[1..]);
      DropOneSpace(s, r);
      r
    else
      s
  }

  /** A suffix of `s[1..]` with a whitespace margin is a suffix of `s` with
      that margin grown by the whitespace `s[0]`. */
  lemma DropOneSpace(s: string, r: string)
    requires |s| > 0 && IsJsSpace(s[0])
    requires |r| <= |s| - 1 && r == s[1..][|s| - 1 - |r|..] && AllSpace(s[1..][..|s| - 1 - |r|])
    ensures r == s[|s| - |r|..] && AllSpace(s[..|s| - |r|])
  {
    var n := |s| - |r|;
    assert s[1..][n - 1..] == s[n..];
    var p := s[..n];
    var q := s[1..][..n - 1];
    forall i | 0 <= i < |p| ensures IsJsSpace(p[i]) {
      if i > 0 {
        assert p[i] == q[i - 1];
      }
    }
  }

  /** Drops trailing whitespace; the result is the prefix that ends at the
      last non-space character. */
  function TrimEnd(s: string): (r: string)
    ensures |r| <= |s| && r == s[..|r|]
    ensures AllSpace(s[|r|..])
    ensures r == [] || !IsJsSpace(r[|r| - 1])
    decreases |s|
  {
    if |s| > 0 && IsJsSpace(s[|s| - 1]) then
      var r := TrimEnd(s[..|s| - 1]);
      DropLastSpace(s, r);
      r
    else
      s
  }

  /** A prefix of `s[..|s| - 1]` with a whitespace margin is a prefix of
      `s` with that margin grown by the whitespace last character. */
  lemma DropLastSpace(s: string, r: string)
    requires |s| > 0 && IsJsSpace(s[|s| - 1])
    requires |r| <= |s| - 1 && r == s[..|s| - 1][..|r|] && AllSpace(s[..|s| - 1][|r|..])
    ensures r == s[..|r|] && AllSpace(s[|r|..])
  {
    var p := s[|r|..];
    var q := s[..|s| - 1][|r|..];
    forall i | 0 <= i < |p| ensures IsJsSpace(p[i]) {
      if i < |q| {
        assert p[i] == q[i];
      }
    }
  }

  /** `String.prototype.trim`: the longest infix of `s` with no leading or
      trailing whitespace, cut out of whitespace-only margins. */
  function Trim(s: string): (r: string)
    ensures TrimOffset(s) <= |s| - |r|
    ensures r == s[TrimOffset(s)..TrimOffset(s) + |r|]
    ensures AllSpace(s[..TrimOffset(s)]) && AllSpace(s[TrimOffset(s) + |r|..])
    ensures r == [] || (!IsJsSpace(r[0]) && !IsJsSpace(r[|r| - 1]))
  {
    TrimPieces(s, TrimStart(s), TrimEnd(TrimStart(s)));
    TrimEnd(TrimStart(s))
  }

  /** Where the trimmed text starts: the length of the leading whitespace. */
  function TrimOffset(s: string): (lo: nat)
    ensures lo <= |s|
  {
    |s| - |TrimStart(s)|
  }

  /** A prefix of a suffix is an infix, and the margins cut off stay whitespace. */
  lemma TrimPieces(s: string, t: string, r: string)
    requires |t| <= |s| && t == s[|s| - |t|..] && AllSpace(s[..|s| - |t|])
    requires |r| <= |t| && r == t[..|r|] && AllSpace(t[|r|..])
    ensures var lo := |s| - |t|;
      r == s[lo..lo + |r|] && AllSpace(s[..lo]) && AllSpace(s[lo + |r|..])
  {
    var lo := |s| - |t|;
    forall i | 0 <= i < |r| ensures r[i] == s[lo + i] {
      assert r[i] == t[i] == s[lo + i];
    }
    var tail := s[lo + |r|..];
    forall i | 0 <= i < |tail| ensures IsJsSpace(tail[i]) {
      assert tail[i] == t[|r|..][i];
    }
  }

  /** Text without surrounding whitespace is left as it is. */
  lemma TrimNoop(s: string)
    requires s == [] || (!IsJsSpace(s[0]) && !IsJsSpace(s[|s| - 1]))
    ensures Trim(s) == s
  {
  }

  /** Trimming leaves nothing exactly when the text is all whitespace. */
  lemma TrimEmptyIffAllSpace(s: string)
    ensures Trim(s) == [] <==> AllSpace(s)
  {
    var r := Trim(s);
    var lo := TrimOffset(s);
    if r == [] {
      SpaceMargins(s, lo);
    } else {
      assert r[0] == s[lo] && !IsJsSpace(s[lo]);
    }
  }

  /** Two whitespace-only pieces make whitespace-only text. */
  lemma SpaceMargins(s: string, lo: nat)
    requires lo <= |s| && AllSpace(s[..lo]) && AllSpace(s[lo..])
    ensures AllSpace(s)
  {
    var left := s[..lo];
    var right := s[lo..];
    forall i | 0 <= i < |s| ensures IsJsSpace(s[i]) {
      if i < lo {
        assert left[i] == s[i];
      } else {
        assert right[i - lo] == s[i];
      }
    }
  }

  // ----------------------------------------------------- occurrence, includes

  /** `pat` occurs in `s` starting at index `i`. */
  predicate OccursAt(s: string, pat: string, i: int) {
    0 <= i && i + |pat| <= |s| && s[i..i + |pat|] == pat
  }

  ghost predicate Contains(s: string, pat: string) {
    exists i :: OccursAt(s, pat, i)
  }

  /** `String.prototype.includes`, as an executable scan. */
  function Includes(s: string, pat: string): (b: bool)
    ensures b <==> Contains(s, pat)
    decreases |s|
  {
    if |pat| > |s| then
      assert forall i :: !OccursAt(s, pat, i);
      false
    else if s[..|pat|] == pat then
      assert OccursAt(s, pat, 0);
      true
    else
      var b := Includes(s[1..], pat);
      ContainsTail(s, pat);
      b
  }

  /** Occurrences in the tail of a string are occurrences one index later in the string. */
  lemma OccursShift(s: string, pat: string, i: int)
    requires |s| > 0 && 0 <= i
    ensures OccursAt(s, pat, i + 1) <==> OccursAt(s[1..], pat, i)
  {
    if i + 1 + |pat| <= |s| {
      assert s[1..][i..i + |pat|] == s[i + 1..i + 1 + |pat|];
    }
  }

  /** When the pattern is not at the front, it occurs in the string iff it occurs in the tail. */
  lemma ContainsTail(s: string, pat: string)
    requires |s| > 0 && !OccursAt(s, pat, 0)
    ensures Contains(s, pat) <==> Contains(s[1..], pat)
  {
    if Contains(s[1..], pat) {
      var i :| OccursAt(s[1..], pat, i);
      OccursShift(s, pat, i);
    }
    if Contains(s, pat) {
      var i :| OccursAt(s, pat, i);
      OccursShift(s, pat, i - 1);
    }
  }

  /** A pattern that starts with a character absent from `s` does not occur in it. */
  lemma AbsentHeadNotContained(s: string, pat: string)
    requires |pat| > 0 && pat[0] !in s
    ensures !Contains(s, pat)
  {
    forall i | 0 <= i && i + |pat| <= |s| ensures !OccursAt(s, pat, i) {
      assert s[i..i + |pat|][0] == s[i];
      assert s[i] in s;
    }
  }

  /** A string occurs in any concatenation it is the middle of. */
  lemma OccursInMiddle(a: string, x: string, b: string)
    ensures OccursAt(a + x + b, x, |a|)
  {
    assert (a + x + b)[|a|..|a| + |x|] == x;
  }

  // ------------------------------------------------------------ split / join

  /** Joins `parts` with the separator between consecutive parts. */
  function Join(parts: seq<string>, sep: char): string
  {
    if |parts| == 0 then ""
    else if |parts| == 1 then parts[0]
    else parts[0] + [sep] + Join(parts[1..], sep)
  }

  /** `String.prototype.split` with a one-character string separator: the
      maximal separator-free runs, in order; always at least one part. */
  function Split(s: string, sep: char): (parts: seq<string>)
    ensures |parts| >= 1
    ensures forall k :: 0 <= k < |parts| ==> sep !in parts[k]
    ensures Join(parts, sep) == s
    decreases |s|
  {
    if |s| == 0 then [""]
    else
      var rest := Split(s[1..], sep);
      if s[0] == sep then
        assert s == [sep] + s[1..];
        [""] + rest
      else
        var parts := [[s[0]] + rest[0]] + rest[1..];
        assert parts[1..] == rest[1..];
        assert s == [s[0]] + s[1..];
        parts
  }

  /** Splitting is the inverse of joining separator-free parts. */
  lemma {:induction false} SplitJoin(parts: seq<string>, sep: char)
    requires |parts| >= 1
    requires forall k :: 0 <= k < |parts| ==> sep !in parts[k]
    ensures Split(Join(parts, sep), sep) == parts
    decreases |parts|, |parts[0]|
  {
    var p := parts[0];
    if |p| == 0 {
      if |parts| > 1 {
        SplitJoin(parts[1..], sep);
        JoinFront(parts, sep);
        SplitFront(Join(parts, sep), sep);
      }
    } else {
      var shorter := [p[1..]] + parts[1..];
      assert shorter[1..] == parts[1..];
      assert forall k :: 0 <= k < |shorter| ==> sep !in shorter[k] by {
        assert forall c :: c in p[1..] ==> c in p;
      }
      SplitJoin(shorter, sep);
      JoinFront(parts, sep);
      assert p[0] != sep by { assert p[0] in p; }
      SplitFront(Join(parts, sep), sep);
      assert [[p[0]] + shorter[0]] + shorter[1..] == parts by {
        assert [p[0]] + p[1..] == p;
      }
    }
  }

  /** How a join begins: with the separator after an empty first part, and
      otherwise with the first character of the first part, followed by the
      join of the parts with that character dropped. */
  lemma JoinFront(parts: seq<string>, sep: char)
    requires |parts| >= 1
    ensures |parts[0]| == 0 && |parts| > 1 ==>
      |Join(parts, sep)| > 0 && Join(parts, sep)[0] == sep && Join(parts, sep)[1..] == Join(parts[1..], sep)
    ensures |parts[0]| > 0 ==>
      |Join(parts, sep)| > 0 && Join(parts, sep)[0] == parts[0][0]
      && Join(parts, sep)[1..] == Join([parts[0][1..]] + parts[1..], sep)
  {
    var p := parts[0];
    if |p| > 0 {
      var shorter := [p[1..]] + parts[1..];
      assert shorter[0] == p[1..] && shorter[1..] == parts[1..];
      assert p == [p[0]] + p[1..];
    }
  }

  /** One step of the split: a leading separator closes an empty part, any
      other character starts the first part. */
  lemma SplitFront(s: string, sep: char)
    requires |s| > 0
    ensures s[0] == sep ==> Split(s, sep) == [""] + Split(s[1..], sep)
    ensures s[0] != sep ==> Split(s, sep) == [[s[0]] + Split(s[1..], sep)[0]] + Split(s[1..], sep)[1..]
  {
  }

  // -------------------------------------------------------------- lazy scan

  /** No line terminator in `s[j..k]`: the span a regex `.*` may cover. */
  ghost predicate DotRun(s: string, j: int, k: int)
    requires 0 <= j <= k <= |s|
  {
    forall m :: j <= m < k ==> !IsLineTerminator(s[m])
  }

  /** `k` is where a lazy `(.*?)` started at `j` stops in front of `delim`. */
  ghost predicate LazyStop(s: string, j: int, delim: string, k: int) {
    && 0 <= j <= k <= |s|
    && OccursAt(s, delim, k)
    && DotRun(s, j, k)
    && forall m :: j <= m < k ==> !OccursAt(s, delim, m)
  }

  /** The regex fragment `(.*?)delim` started at index `j`: the first index
      where `delim` occurs, provided no line terminator comes first. */
  function LazyUntil(s: string, j: nat, delim: string): (r: Option<nat>)
    requires j <= |s|
    ensures r.Some? ==> LazyStop(s, j, delim, r.value)
    ensures r.None? ==> forall k :: j <= k <= |s| && OccursAt(s, delim, k) ==> !DotRun(s, j, k)
    decreases |s| - j
  {
    if OccursAt(s, delim, j) then Some(j)
    else if j == |s| || IsLineTerminator(s[j]) then None
    else LazyUntil(s, j + 1, delim)
  }

  /** The stop of a lazy scan is the only index that qualifies. */
  lemma LazyUntilUnique(s: string, j: nat, delim: string, k: nat)
    requires j <= k <= |s|
    requires OccursAt(s, delim, k) && DotRun(s, j, k)
    requires forall m :: j <= m < k ==> !OccursAt(s, delim, m)
    ensures LazyUntil(s, j, delim) == Some(k)
  {
  }

  /** A lazy scan that meets a line terminator before its delimiter fails. */
  lemma {:induction false} LazyUntilBlocked(s: string, j: nat, delim: string, q: nat)
    requires j <= q < |s| && IsLineTerminator(s[q])
    requires forall m :: j <= m <= q ==> !OccursAt(s, delim, m)
    ensures LazyUntil(s, j, delim) == None
    decreases q - j
  {
    if j < q {
      LazyUntilBlocked(s, j + 1, delim, q);
    }
  }

  // -------------------------------------------------------------- decimals

  function DigitChar(d: nat): char
    requires d < 10
  {
    ('0' as int + d) as char
  }

  /** The decimal rendering JavaScript gives a non-negative integer. */
  function NatToDecimal(n: nat): (r: string)
    ensures |r| >= 1
    ensures forall k :: 0 <= k < |r| ==> '0' <= r[k] <= '9'
    ensures |r| > 1 ==> r[0] != '0'
  {
    if n < 10 then [DigitChar(n)] else NatToDecimal(n / 10) + [DigitChar(n % 10)]
  }

  /** The value a string of decimal digits denotes. */
  function DecimalValue(s: string): nat
    requires forall k :: 0 <= k < |s| ==> '0' <= s[k] <= '9'
  {
    if |s| == 0 then 0 else 10 * DecimalValue(s[..|s| - 1]) + (s[|s| - 1] as int - '0' as int)
  }

  /** Reading a rendered number gives the number back, so distinct numbers
      render distinctly. */
  lemma {:induction false} DecimalRoundTrip(n: nat)
    ensures DecimalValue(NatToDecimal(n)) == n
  {
    if n >= 10 {
      DecimalRoundTrip(n / 10);
      var r := NatToDecimal(n);
      assert r[..|r| - 1] == NatToDecimal(n / 10);
    }
  }
}

=== FILE: lead_directive.dfy ===
/**
  The lead directive of the main chat handler's post-processing. A reply
  that `includes("[LEAD_DATA:")` is matched against `/\[LEAD_DATA: (.*?)\]/`:
  the leftmost position where the literal `[LEAD_DATA: ` (one space) is
  followed, on the same line, by a `]`. The capture is split on `|`, each
  field trimmed and mapped to name, phone and interest; the first marker is
  removed from the reply, which is then trimmed. When the keyword is present
  but the pattern does not match, the capture is `undefined` and the
  `split` throws.
 */
module LeadDirective {

  import opened Optional
  import opened JsStrings

  /** The text `includes` looks for. */
  const LeadKeyword: string := "[LEAD_DATA:"

  /** The literal the regular expression starts with. */
  const LeadOpen: string := "[LEAD_DATA: "

  /** A captured lead; a field past the end of the split is `undefined`. */
  datatype Lead = Lead(name: string, phone: Option<string>, interest: Option<string>)

  /** A matched marker occupies `s[start..close + 1]`; `s[close]` is its `]`. */
  datatype Span = Span(start: nat, close: nat)

  /** The regex matches at `i` and its closing `]` is at `k`. */
  ghost predicate MatchAt(s: string, i: int, k: int) {
    OccursAt(s, LeadOpen, i) && LazyStop(s, i + |LeadOpen|, "]", k)
  }

  /** The closing bracket of a match starting at `i`, if one starts there. */
  function MatchFrom(s: string, i: nat): (r: Option<nat>)
    ensures r.Some? ==> MatchAt(s, i, r.value)
    ensures r.None? ==> forall k :: !MatchAt(s, i, k)
  {
    if OccursAt(s, LeadOpen, i) then LazyUntil(s, i + |LeadOpen|, "]") else None
  }

  /** The leftmost match at or after `i`. */
  function FindFrom(s: string, i: nat): (r: Option<Span>)
    requires i <= |s|
    ensures r.Some? ==> i <= r.value.start && MatchAt(s, r.value.start, r.value.close)
    ensures r.Some? ==> forall i', k :: i <= i' < r.value.start ==> !MatchAt(s, i', k)
    ensures r.None? ==> forall i', k :: i <= i' ==> !MatchAt(s, i', k)
    decreases |s| - i
  {
    match MatchFrom(s, i)
    case Some(k) => Some(Span(i, k))
    case None => if i == |s| then None else FindFrom(s, i + 1)
  }

  /** `aiReply.match(/\[LEAD_DATA: (.*?)\]/)`: the first match, if any. */
  function FindLead(s: string): Option<Span> {
    FindFrom(s, 0)
  }

  /** The regex's group 1. */
  function Capture(s: string, m: Span): string
    requires m.start + |LeadOpen| <= m.close < |s|
  {
    s[m.start + |LeadOpen|..m.close]
  }

  /** `replace(/\[LEAD_DATA: .*?\]/, "")`: the first marker cut out. */
  function Remove(s: string, m: Span): string
    requires m.start <= m.close < |s|
  {
    s[..m.start] + s[m.close + 1..]
  }

  function FieldAt(parts: seq<string>, k: nat): Option<string> {
    if k < |parts| then Some(Trim(parts[k])) else None
  }

  /** `const [name, phone, interest] = leadRaw.split('|').map(s => s.trim())`. */
  function Fields(capture: string): Lead {
    var parts := Split(capture, '|');
    Lead(Trim(parts[0]), FieldAt(parts, 1), FieldAt(parts, 2))
  }

  /** What post-processing makes of a raw reply: no directive, a captured
      lead with the cleaned reply, or a keyword the pattern does not match
      (the source throws on `undefined.split`). */
  datatype Interpretation = Plain(reply: string) | Captured(lead: Lead, reply: string) | Malformed

  function Interpret(raw: string): (r: Interpretation)
    ensures r.Plain? <==> !Contains(raw, LeadKeyword)
    ensures r.Plain? ==> r.reply == Trim(raw)
    ensures r.Malformed? <==> Contains(raw, LeadKeyword) && forall i, k :: !MatchAt(raw, i, k)
    ensures r.Captured? ==> FirstCapture(raw, r.lead, r.reply)
  {
    if !Includes(raw, LeadKeyword) then
      Plain(Trim(raw))
    else
      match FindLead(raw)
      case None => Malformed
      case Some(m) =>
        CapturedFirst(raw);
        Captured(Fields(Capture(raw, m)), Trim(Remove(raw, m)))
  }

  /** `m` is the leftmost match: it matches, and no match starts before it. */
  ghost predicate LeftmostMatch(raw: string, m: Span) {
    MatchAt(raw, m.start, m.close) && forall i, k :: 0 <= i < m.start ==> !MatchAt(raw, i, k)
  }

  /** `lead` and `reply` come from the leftmost match: the lead from the
      fields of its capture, the reply from the text with the marker cut
      out, trimmed. */
  ghost predicate FirstCapture(raw: string, lead: Lead, reply: string) {
    exists m :: LeftmostMatch(raw, m)
      && lead == Fields(raw[m.start + |LeadOpen|..m.close])
      && reply == Trim(raw[..m.start] + raw[m.close + 1..])
  }

  /** The search's result is the leftmost match, and capture and removal are taken from it. */
  lemma CapturedFirst(raw: string)
    requires FindLead(raw).Some?
    ensures FirstCapture(raw, Fields(Capture(raw, FindLead(raw).value)), Trim(Remove(raw, FindLead(raw).value)))
  {
    assert LeftmostMatch(raw, FindLead(raw).value);
  }

  // ------------------------------------------------------------------ lemmas

  /** Every match contains the keyword `includes` tests, so a reply without
      the keyword is never matched. */
  lemma MatchHasKeyword(s: string, i: int, k: int)
    requires MatchAt(s, i, k)
    ensures OccursAt(s, LeadKeyword, i)
  {
    OpenHasKeyword(s, i);
  }

  lemma OpenHasKeyword(s: string, i: int)
    requires OccursAt(s, LeadOpen, i)
    ensures OccursAt(s, LeadKeyword, i)
  {
    assert s[i..i + |LeadKeyword|] == s[i..i + |LeadOpen|][..|LeadKeyword|];
  }

  /** The search passes over positions where the marker literal does not start. */
  lemma {:induction false} FindSkips(s: string, i: nat, target: nat)
    requires i <= target <= |s|
    requires forall p :: i <= p < target ==> !OccursAt(s, LeadOpen, p)
    ensures FindFrom(s, i) == FindFrom(s, target)
    decreases target - i
  {
    if i < target {
      FindSkips(s, i + 1, target);
    }
  }

  /** Where the pieces of `u + (x + body + y) + v` sit. */
  lemma Layout(u: string, x: string, body: string, y: string, v: string)
    ensures var s := u + (x + body + y) + v;
      && |s| == |u| + |x| + |body| + |y| + |v|
      && s[..|u|] == u
      && s[|u|..|u| + |x|] == x
      && s[|u| + |x|..|u| + |x| + |body|] == body
      && s[|u| + |x| + |body|..|u| + |x| + |body| + |y|] == y
      && s[|u| + |x| + |body| + |y|..] == v
  {
  }

  /** A marker literal cannot start inside text without a `[`. */
  lemma NoOpenIn(u: string, rest: string)
    requires '[' !in u
    ensures forall p :: 0 <= p < |u| ==> !OccursAt(u + rest, LeadOpen, p)
  {
    forall p | 0 <= p < |u| ensures !OccursAt(u + rest, LeadOpen, p) {
      assert (u + rest)[p] == u[p];
      if p + |LeadOpen| <= |u + rest| {
        assert (u + rest)[p..p + |LeadOpen|][0] == u[p];
      }
    }
  }

  ghost predicate FieldText(a: string) {
    ']' !in a && '|' !in a && forall m :: 0 <= m < |a| ==> !IsLineTerminator(a[m])
  }

  /** A well-formed marker behind text without a marker literal is found, its capture
      is exactly its body, and removing it leaves the text around it. */
  lemma MarkerFound(u: string, body: string, v: string)
    requires !Contains(u, LeadOpen)
    requires ']' !in body && forall m :: 0 <= m < |body| ==> !IsLineTerminator(body[m])
    ensures var s := u + (LeadOpen + body + "]") + v;
      && FindLead(s) == Some(Span(|u|, |u| + |LeadOpen| + |body|))
      && Capture(s, Span(|u|, |u| + |LeadOpen| + |body|)) == body
      && Remove(s, Span(|u|, |u| + |LeadOpen| + |body|)) == u + v
      && Contains(s, LeadKeyword)
  {
    LeadPieces(u, body, v);
    NoOpenBefore(u + (LeadOpen + body + "]") + v, |u|);
    FoundAt(u + (LeadOpen + body + "]") + v, |u|, body);
  }

  /** Where the pieces of a marker behind some text sit. */
  lemma LeadPieces(u: string, body: string, v: string)
    ensures var s := u + (LeadOpen + body + "]") + v;
      var j := |u| + |LeadOpen|;
      && j + |body| < |s|
      && s[..|u|] == u
      && OccursAt(s, LeadOpen, |u|)
      && s[j..j + |body|] == body && s[j + |body|] == ']'
      && s[..|u|] + s[j + |body| + 1..] == u + v
  {
    var s := u + (LeadOpen + body + "]") + v;
    Layout(u, LeadOpen, body, "]", v);
    assert s[|u| + |LeadOpen| + |body|..|u| + |LeadOpen| + |body| + 1] == "]";
  }

  /** The marker literal has a `[` only at its front. */
  lemma OpenBracketFirst(d: nat)
    requires 0 < d < |LeadOpen|
    ensures LeadOpen[d] != '['
  {
  }

  /** When the text in front of a marker literal holds no marker literal,
      none starts before it: one that began earlier would have to overlap
      the marker's `[` with a later character of the literal. */
  lemma NoOpenBefore(s: string, n: nat)
    requires OccursAt(s, LeadOpen, n) && !Contains(s[..n], LeadOpen)
    ensures forall p :: 0 <= p < n ==> !OccursAt(s, LeadOpen, p)
  {
    forall p | 0 <= p < n && p + |LeadOpen| <= |s| ensures !OccursAt(s, LeadOpen, p) {
      if p + |LeadOpen| <= n {
        assert !OccursAt(s[..n], LeadOpen, p);
        assert s[..n][p..p + |LeadOpen|] == s[p..p + |LeadOpen|];
      } else {
        assert s[p..p + |LeadOpen|][n - p] == s[n] == s[n..n + |LeadOpen|][0];
        OpenBracketFirst(n - p);
      }
    }
  }

  /** The first marker literal, followed by a clean body and `]`, is the
      match the search returns, and its capture is that body. */
  lemma FoundAt(s: string, i: nat, body: string)
    requires i + |LeadOpen| + |body| < |s|
    requires forall p :: 0 <= p < i ==> !OccursAt(s, LeadOpen, p)
    requires OccursAt(s, LeadOpen, i)
    requires s[i + |LeadOpen|..i + |LeadOpen| + |body|] == body && s[i + |LeadOpen| + |body|] == ']'
    requires ']' !in body && forall m :: 0 <= m < |body| ==> !IsLineTerminator(body[m])
    ensures FindLead(s) == Some(Span(i, i + |LeadOpen| + |body|))
    ensures Capture(s, Span(i, i + |LeadOpen| + |body|)) == body
    ensures Contains(s, LeadKeyword)
  {
    FindSkips(s, 0, i);
    BodyScan(s, i + |LeadOpen|, body);
    OpenHasKeyword(s, i);
  }

  /** A line-clean, bracket-free body followed by `]` is exactly what the lazy scan covers. */
  lemma BodyScan(s: string, j: nat, body: string)
    requires j + |body| < |s| && s[j..j + |body|] == body && s[j + |body|] == ']'
    requires ']' !in body && forall m :: 0 <= m < |body| ==> !IsLineTerminator(body[m])
    ensures LazyUntil(s, j, "]") == Some(j + |body|)
  {
    var k := j + |body|;
    assert OccursAt(s, "]", k) by { assert s[k..k + 1] == [s[k]]; }
    forall m | j <= m < k ensures !OccursAt(s, "]", m) && !IsLineTerminator(s[m]) {
      assert s[m] == body[m - j];
      assert body[m - j] in body;
      assert s[m..m + 1] == [s[m]];
    }
    LazyUntilUnique(s, j, "]", k);
  }

  /** Once its marker is found, a reply is interpreted from the marker's body. */
  lemma InterpretFound(u: string, body: string, v: string)
    requires !Contains(u, LeadOpen)
    requires ']' !in body && forall m :: 0 <= m < |body| ==> !IsLineTerminator(body[m])
    ensures Interpret(u + (LeadOpen + body + "]") + v) == Captured(Fields(body), Trim(u + v))
  {
    MarkerFound(u, body, v);
  }

  /** Fields joined by `|` form a body the lazy scan crosses. */
  lemma JoinedFieldsClean(a: string, b: string, c: string)
    requires FieldText(a) && FieldText(b) && FieldText(c)
    ensures var body := a + "|" + b + "|" + c;
      ']' !in body && forall m :: 0 <= m < |body| ==> !IsLineTerminator(body[m])
  {
    var body := a + "|" + b + "|" + c;
    forall m | 0 <= m < |body| ensures !IsLineTerminator(body[m]) {
      if m < |a| { assert body[m] == a[m]; }
      else if m == |a| { assert body[m] == '|'; }
      else if m < |a| + 1 + |b| { assert body[m] == b[m - |a| - 1]; }
      else if m == |a| + 1 + |b| { assert body[m] == '|'; }
      else { assert body[m] == c[m - |a| - |b| - 2]; }
    }
  }

  /** Three `|`-free fields joined by `|` split back into those fields. */
  lemma ThreeFields(a: string, b: string, c: string)
    requires '|' !in a && '|' !in b && '|' !in c
    ensures Fields(a + "|" + b + "|" + c) == Lead(Trim(a), Some(Trim(b)), Some(Trim(c)))
  {
    assert Join([a, b, c], '|') == a + "|" + b + "|" + c by {
      assert [a, b, c][1..] == [b, c];
      assert [b, c][1..] == [c];
      assert Join([c], '|') == c;
      assert Join([b, c], '|') == b + "|" + c;
      assert Join([a, b, c], '|') == a + "|" + (b + "|" + c);
    }
    SplitJoin([a, b, c], '|');
  }

  /** The round trip of the directive grammar: `[LEAD_DATA: a | b | c]`
      after text without a marker literal yields one lead with the trimmed fields a,
      b, c, and the reply is the surrounding text with only that marker
      removed, trimmed. */
  lemma DirectiveRoundTrip(u: string, a: string, b: string, c: string, v: string)
    requires !Contains(u, LeadOpen)
    requires FieldText(a) && FieldText(b) && FieldText(c)
    ensures Interpret(u + (LeadOpen + (a + "|" + b + "|" + c) + "]") + v)
         == Captured(Lead(Trim(a), Some(Trim(b)), Some(Trim(c))), Trim(u + v))
  {
    JoinedFieldsClean(a, b, c);
    InterpretFound(u, a + "|" + b + "|" + c, v);
    ThreeFields(a, b, c);
  }

  /** An `[IMAGE: url]` tag, which the system prompt asks the model to
      emit, is not a marker literal: its only `[` is followed by `I`. */
  lemma ImageTagHoldsNoMarker(url: string, w: string)
    requires '[' !in url && '[' !in w
    ensures !Contains("[IMAGE: " + url + "]" + w, LeadOpen)
  {
    var u := "[IMAGE: " + url + "]" + w;
    forall p | 0 <= p && p + |LeadOpen| <= |u| ensures !OccursAt(u, LeadOpen, p) {
      if p == 0 {
        assert u[p..p + |LeadOpen|][1] == u[1] == 'I';
      } else {
        assert u[p..p + |LeadOpen|][0] == u[p];
        if p < 8 {
          assert u[p] == "[IMAGE: "[p];
        } else if p < 8 + |url| {
          assert u[p] == url[p - 8];
          assert url[p - 8] in url;
        } else if p > 8 + |url| {
          assert u[p] == w[p - 9 - |url|];
          assert w[p - 9 - |url|] in w;
        }
      }
    }
  }

  /** The round trip with a product image shown before the lead marker. */
  lemma ImageThenLead(url: string, w: string, a: string, b: string, c: string, v: string)
    requires '[' !in url && '[' !in w
    requires FieldText(a) && FieldText(b) && FieldText(c)
    ensures Interpret(("[IMAGE: " + url + "]" + w) + (LeadOpen + (a + "|" + b + "|" + c) + "]") + v)
         == Captured(Lead(Trim(a), Some(Trim(b)), Some(Trim(c))), Trim(("[IMAGE: " + url + "]" + w) + v))
  {
    ImageTagHoldsNoMarker(url, w);
    DirectiveRoundTrip("[IMAGE: " + url + "]" + w, a, b, c, v);
  }

  /** A marker with a single field still yields a lead, with the missing
      phone and interest left undefined. */
  lemma SingleFieldLead(u: string, a: string, v: string)
    requires !Contains(u, LeadOpen) && FieldText(a)
    ensures Interpret(u + (LeadOpen + a + "]") + v) == Captured(Lead(Trim(a), None, None), Trim(u + v))
  {
    assert Join([a], '|') == a;
    SplitJoin([a], '|');
    assert Fields(a) == Lead(Trim(a), None, None);
    InterpretFound(u, a, v);
  }

  /** With no marker literal from `i` on, the search finds nothing. */
  lemma NoOpenNoMatch(s: string, i: nat)
    requires i <= |s|
    requires forall p :: i <= p <= |s| ==> !OccursAt(s, LeadOpen, p)
    ensures FindFrom(s, i) == None
  {
    FindSkips(s, i, |s|);
  }

  /** Without the space after the colon, the keyword is present but the
      pattern never matches: the source's `split` on `undefined` throws. */
  lemma MissingSpaceIsMalformed(w: string)
    requires '[' !in w
    requires w == [] || w[0] != ' '
    ensures Interpret(LeadKeyword + w) == Malformed
  {
    var s := LeadKeyword + w;
    assert OccursAt(s, LeadKeyword, 0) by { assert s[..|LeadKeyword|] == LeadKeyword; }
    forall i | 0 <= i <= |s| ensures !OccursAt(s, LeadOpen, i) {
      if i + |LeadOpen| <= |s| {
        if i == 0 {
          assert s[..|LeadOpen|][11] == s[11] == w[0];
        } else {
          assert s[i..i + |LeadOpen|][0] == s[i];
          if i < |LeadKeyword| { assert s[i] == LeadKeyword[i]; }
          else { assert s[i] == w[i - |LeadKeyword|]; assert w[i - |LeadKeyword|] in w; }
        }
      }
    }
    NoOpenNoMatch(s, 0);
  }

  /** No marker literal starts where no `[` follows. */
  lemma NoOpenAfter(s: string, i: nat)
    requires i <= |s|
    requires forall p :: i <= p < |s| ==> s[p] != '['
    ensures forall p :: i <= p <= |s| ==> !OccursAt(s, LeadOpen, p)
  {
    forall p | i <= p <= |s| && p + |LeadOpen| <= |s| ensures !OccursAt(s, LeadOpen, p) {
      assert s[p..p + |LeadOpen|][0] == s[p];
    }
  }

  /** A marker literal at `i` whose line ends before any `]`, with no other
      `[` in the text, leaves the search empty-handed. */
  lemma UnclosedAt(s: string, i: nat, q: nat)
    requires OccursAt(s, LeadOpen, i) && i + |LeadOpen| <= q < |s| && IsLineTerminator(s[q])
    requires forall p :: 0 <= p < i ==> !OccursAt(s, LeadOpen, p)
    requires forall m :: i + |LeadOpen| <= m < q ==> s[m] != ']'
    requires forall p :: i < p < |s| ==> s[p] != '['
    ensures FindLead(s) == None
  {
    FindSkips(s, 0, i);
    BlockedAt(s, i, q);
    NoOpenAfter(s, i + 1);
    NoOpenNoMatch(s, i + 1);
  }

  /** A line terminator before any `]` stops the match at `i`. */
  lemma BlockedAt(s: string, i: nat, q: nat)
    requires i + |LeadOpen| <= q < |s| && IsLineTerminator(s[q])
    requires forall m :: i + |LeadOpen| <= m < q ==> s[m] != ']'
    ensures MatchFrom(s, i) == None
  {
    forall m | i + |LeadOpen| <= m <= q ensures !OccursAt(s, "]", m) {
      assert s[m..m + 1][0] == s[m];
    }
    LazyUntilBlocked(s, i + |LeadOpen|, "]", q);
  }

  /** A marker whose line ends before any `]` does not match either. */
  lemma UnclosedIsMalformed(u: string, w: string, v: string)
    requires '[' !in u && '[' !in v
    requires ']' !in w && '[' !in w && forall m :: 0 <= m < |w| ==> !IsLineTerminator(w[m])
    ensures Interpret(u + (LeadOpen + w + "\n") + v) == Malformed
  {
    var s := u + (LeadOpen + w + "\n") + v;
    var j := |u| + |LeadOpen|;
    var q := j + |w|;
    Layout(u, LeadOpen, w, "\n", v);
    assert OccursAt(s, LeadOpen, |u|);
    OpenHasKeyword(s, |u|);
    NoOpenIn(u, (LeadOpen + w + "\n") + v);
    assert u + ((LeadOpen + w + "\n") + v) == s;
    forall m | j <= m < q ensures s[m] != ']' {
      assert s[m] == w[m - j]; assert w[m - j] in w;
    }
    forall p | |u| < p < |s| ensures s[p] != '[' {
      if p < j { assert s[p] == LeadOpen[p - |u|]; }
      else if p < q { assert s[p] == w[p - j]; assert w[p - j] in w; }
      else if p > q { assert s[p] == v[p - q - 1]; assert v[p - q - 1] in v; }
    }
    UnclosedAt(s, |u|, q);
  }
}

=== FILE: main_chat.dfy ===
/**
  The main chat handler (`chat2.js`): preflight answer, tenant configuration
  and quota gate, prompt and context assembly, ordered provider failover,
  lead post-processing, and the final usage increment and turn insert. All
  store reads arrive as already-fetched data, provider answers and the
  alert transport as a `World`, and every write or notification is returned
  as an `Effect`.
 */
module MainChat {

  import opened Optional
  import opened JsStrings
  import opened History
  import opened Failover
  import opened Quota
  import opened Prompt
  import opened LeadDirective
  import opened Http

  /** `{ client_id, session_id, message }` of the request body. */
  datatype ChatRequest = ChatRequest(clientId: string, sessionId: string, message: string)

  /** The Netlify event; a body that `JSON.parse` or the destructuring
      rejects is `None`. */
  datatype Event = Event(httpMethod: string, body: Option<ChatRequest>)

  /** The joined `clients` row of a bot configuration. */
  datatype Tenant = Tenant(businessName: string, planType: string, telegramChatId: Option<string>)

  /** A `bot_configs` row; `clients` is absent when the join found nothing. */
  datatype BotConfig = BotConfig(botName: string, persona: string, knowledge: string, client: Option<Tenant>)

  /** What the store returned: the configuration (absent when `.single()`
      fails), the products, today's usage row, and the conversation log in
      `created_at` order (absent when the history query fails). */
  datatype Fetched = Fetched(
    config: Option<BotConfig>,
    products: Option<seq<Product>>,
    usage: Option<int>,
    conversations: Option<seq<StoredTurn>>)

  datatype Env = Env(groqKey: Option<string>, geminiKey: Option<string>, telegramToken: Option<string>)

  /** What the outside world answers: each provider's outcome in list
      order, and whether the Telegram request can be sent (a `fetch` that
      rejects throws out of the handler). */
  datatype World = World(groq: Outcome, gemini: Outcome, alertReachable: bool)

  const CorsHeaders: seq<(string, string)> := [
    ("Access-Control-Allow-Origin", "*"),
    ("Access-Control-Allow-Headers", "Content-Type"),
    ("Access-Control-Allow-Methods", "POST, OPTIONS")
  ]

  function Respond(status: nat, body: Body): Response {
    Response(status, CorsHeaders, body)
  }

  /** The `catch` branch. */
  const ServerError: Response := Respond(500, ErrorJson("Server Error", None))

  const GroqUrl: string := "https://api.groq.com/openai/v1/chat/completions"
  const GeminiUrl: string := "https://generativelanguage.googleapis.com/v1beta/openai/chat/completions"

  /** The larger Groq model is reserved for the Pro plan. */
  function GroqModel(plan: string): (m: string)
    ensures m == "llama-3.3-70b-versatile" <==> plan == "Pro"
  {
    if plan == "Pro" then "llama-3.3-70b-versatile" else "llama-3.1-8b-instant"
  }

  /** The failover list, in priority order: Groq, then Gemini. */
  function Providers(plan: string, env: Env): (ps: seq<Provider>)
    ensures |ps| == 2 && ps[0].name == "Groq" && ps[1].name == "Gemini"
  {
    [ Provider("Groq", GroqModel(plan), GroqUrl, env.groqKey),
      Provider("Gemini", "gemini-1.5-pro", GeminiUrl, env.geminiKey) ]
  }

  function Outcomes(world: World): seq<Outcome> {
    [world.groq, world.gemini]
  }

  function CallsTo(ps: seq<Provider>, messages: seq<Message>): (cs: seq<ProviderCall>)
    ensures |cs| == |ps|
    ensures forall k :: 0 <= k < |ps| ==> cs[k] == ProviderCall(ps[k].url, ps[k].model, ps[k].key, messages)
  {
    seq(|ps|, k requires 0 <= k < |ps| => ProviderCall(ps[k].url, ps[k].model, ps[k].key, messages))
  }

  /** A template literal renders `undefined` fields literally. */
  function Show(field: Option<string>): string {
    field.GetOr("undefined")
  }

  function AlertText(lead: Lead): string {
    "\U{1F3AF} *New Lead!*\n\nName: " + lead.name + "\nPhone: " + Show(lead.phone) + "\nInterest: " + Show(lead.interest)
  }

  /** `sendTelegramAlert` sends only with both a chat id and a bot token. */
  predicate AlertConfigured(tenant: Tenant, env: Env) {
    Truthy(tenant.telegramChatId) && Truthy(env.telegramToken)
  }

  /** The lead insert and the alert; `true` when the alert's fetch threw. */
  function LeadEffects(req: ChatRequest, tenant: Tenant, env: Env, world: World, lead: Lead): (r: (seq<Effect>, bool))
    ensures forall k :: 0 <= k < |r.0| ==> Attributed(r.0[k], req, tenant)
    ensures AlertsReportLeads(r.0)
  {
    if AlertConfigured(tenant, env) then
      ([InsertLead(req.clientId, lead), SendAlert(tenant.telegramChatId.value, AlertText(lead))], !world.alertReachable)
    else
      ([InsertLead(req.clientId, lead)], false)
  }

  /** Step 7: usage increment and the user/assistant turn pair. */
  function Commit(req: ChatRequest, reply: string): (r: seq<Effect>)
    ensures forall k :: 0 <= k < |r| ==> !r[k].SendAlert? && forall tenant :: Attributed(r[k], req, tenant)
  {
    [IncrementUsage(req.clientId), InsertTurns(req.clientId, req.sessionId, req.message, reply)]
  }

  /** An effect belongs to the request's tenant and session; an alert goes
      to the tenant's own Telegram chat. */
  predicate Attributed(e: Effect, req: ChatRequest, tenant: Tenant) {
    match e
    case IncrementUsage(c) => c == req.clientId
    case InsertTurns(c, s, u, _) => c == req.clientId && s == req.sessionId && u == req.message
    case InsertLead(c, _) => c == req.clientId
    case SendAlert(chat, _) => Truthy(tenant.telegramChatId) && chat == tenant.telegramChatId.value
  }

  /** Every alert reports the lead inserted just before it. */
  predicate AlertsReportLeads(effects: seq<Effect>) {
    forall k :: 0 <= k < |effects| && effects[k].SendAlert? ==>
      0 < k && effects[k - 1].InsertLead? && effects[k].text == AlertText(effects[k - 1].lead)
  }

  /** A captured lead: insert it, alert, then commit, unless the alert threw. */
  function AfterLead(req: ChatRequest, tenant: Tenant, env: Env, world: World, lead: Lead, clean: string): (r: (Response, seq<Effect>))
    ensures r.0.status == 200 || r.0.status == 500
    ensures forall k :: 0 <= k < |r.1| ==> Attributed(r.1[k], req, tenant)
    ensures AlertsReportLeads(r.1)
  {
    var (leadEffects, threw) := LeadEffects(req, tenant, env, world, lead);
    if threw then (ServerError, leadEffects)
    else (Respond(200, ReplyJson(clean)), leadEffects + Commit(req, clean))
  }

  /** Steps 6 and 7 for a provider reply. */
  function PostProcess(req: ChatRequest, tenant: Tenant, env: Env, world: World, aiReply: string): (r: (Response, seq<Effect>))
    ensures r.0.status == 200 || r.0.status == 500
    ensures forall k :: 0 <= k < |r.1| ==> Attributed(r.1[k], req, tenant)
    ensures AlertsReportLeads(r.1)
  {
    match Interpret(aiReply)
    case Malformed => (ServerError, [])
    case Plain(clean) => (Respond(200, ReplyJson(clean)), Commit(req, clean))
    case Captured(lead, clean) => AfterLead(req, tenant, env, world, lead, clean)
  }

  /** The messages sent to every provider. */
  function Context(req: ChatRequest, config: BotConfig, tenant: Tenant, fetched: Fetched): seq<Message> {
    var prompt := SystemPrompt(config.botName, tenant.businessName, config.persona, config.knowledge, fetched.products.GetOr([]));
    Assemble(prompt, HistoryWindow(RecentFetch(fetched.conversations, req.sessionId)), req.message)
  }

  /** Steps 5 to 7 once the request is past the quota gate: failover over
      the plan's providers with one message list, then post-processing. */
  function Answer(req: ChatRequest, tenant: Tenant, messages: seq<Message>, env: Env, world: World): (h: Handled)
    ensures h.response.status == 200 || h.response.status == 500
    ensures |h.calls| <= 2 && h.calls != []
    ensures forall k :: 0 <= k < |h.effects| ==> Attributed(h.effects[k], req, tenant)
    ensures AlertsReportLeads(h.effects)
  {
    var d := Dispatch(Outcomes(world));
    var calls := CallsTo(Providers(tenant.planType, env)[..d.invoked], messages);
    match d.reply
    case None => Handled(ServerError, calls, [])
    case Some(aiReply) =>
      var (response, effects) := PostProcess(req, tenant, env, world, aiReply);
      Handled(response, calls, effects)
  }

  /** The handler. */
  function Handle(event: Event, env: Env, fetched: Fetched, world: World): (h: Handled)
    ensures h.response.status == 200 || h.response.status == 500
    ensures |h.calls| <= 2
    ensures h.effects != [] ==> Admitted(event, fetched) && AlertsReportLeads(h.effects)
    ensures h.effects != [] ==> forall k :: 0 <= k < |h.effects| ==> Attributed(h.effects[k], event.body.value, fetched.config.value.client.value)
    ensures h.calls == [] ==> h.effects == []
  {
    if event.httpMethod == "OPTIONS" then
      Handled(Respond(200, Text("OK")), [], [])
    else if event.body.None? || fetched.config.None? || fetched.config.value.client.None? then
      Handled(ServerError, [], [])
    else
      var req := event.body.value;
      var config := fetched.config.value;
      var tenant := config.client.value;
      if LimitReached(tenant.planType, fetched.usage) then
        Handled(Respond(200, ReplyJson(LimitReply)), [], [])
      else
        Answer(req, tenant, Context(req, config, tenant, fetched), env, world)
  }

  // ------------------------------------------------------------------ lemmas

  /** A request that gets past configuration loading. */
  predicate Admitted(event: Event, fetched: Fetched) {
    event.httpMethod != "OPTIONS" && event.body.Some? && fetched.config.Some? && fetched.config.value.client.Some?
  }

  function PlanOf(fetched: Fetched): string
    requires fetched.config.Some? && fetched.config.value.client.Some?
  {
    fetched.config.value.client.value.planType
  }

  /** At or over the plan's ceiling, the handler answers the limit text
      with status 200, calls no provider, writes no turn and does not touch
      the usage counter. */
  lemma QuotaShortCircuits(event: Event, env: Env, fetched: Fetched, world: World)
    requires Admitted(event, fetched)
    requires LimitReached(PlanOf(fetched), fetched.usage)
    ensures Handle(event, env, fetched, world) == Handled(Respond(200, ReplyJson(LimitReply)), [], [])
  {
  }

  /** The handler gates with the corrected ceiling. For every plan not
      named like an inherited object property it decides as the code does:
      the limit reply exactly when `currentUsage >= (limits[plan] || 30)`,
      and otherwise at least one provider call. */
  lemma QuotaAsWritten(event: Event, env: Env, fetched: Fetched, world: World)
    requires Admitted(event, fetched) && PlanOf(fetched) !in InheritedKeys
    ensures LimitReachedAsWritten(PlanOf(fetched), fetched.usage)
      ==> Handle(event, env, fetched, world) == Handled(Respond(200, ReplyJson(LimitReply)), [], [])
    ensures !LimitReachedAsWritten(PlanOf(fetched), fetched.usage) ==> Handle(event, env, fetched, world).calls != []
  {
    AsWrittenAgreesElsewhere(PlanOf(fetched), fetched.usage);
  }

  /** When every provider throws or has no content, the answer is the
      generic 500 and nothing is written, though both providers were tried. */
  lemma AllProvidersFailed(event: Event, env: Env, fetched: Fetched, world: World)
    requires Admitted(event, fetched) && !LimitReached(PlanOf(fetched), fetched.usage)
    requires !Yields(world.groq) && !Yields(world.gemini)
    ensures var h := Handle(event, env, fetched, world);
      && h.response == ServerError
      && h.effects == []
      && |h.calls| == 2 && h.calls[0].url == GroqUrl && h.calls[1].url == GeminiUrl
  {
    var d := Dispatch(Outcomes(world));
    assert d.reply.None?;
  }

  /** Failover order: Gemini is asked only after Groq failed, and a Groq
      answer ends the loop. */
  lemma FailoverOrder(event: Event, env: Env, fetched: Fetched, world: World)
    requires Admitted(event, fetched) && !LimitReached(PlanOf(fetched), fetched.usage)
    ensures var h := Handle(event, env, fetched, world);
      && (Yields(world.groq) ==> |h.calls| == 1 && h.calls[0].model == GroqModel(PlanOf(fetched)))
      && (!Yields(world.groq) ==> |h.calls| == 2 && h.calls[1].model == "gemini-1.5-pro")
      && (forall k :: 0 <= k < |h.calls| ==> h.calls[k].messages == h.calls[0].messages)
  {
    var messages := AdmittedCalls(event, env, fetched, world);
    CallsInOrder(PlanOf(fetched), env, world, messages);
  }

  /** The calls the failover loop issues for one plan and one message list. */
  lemma CallsInOrder(plan: string, env: Env, world: World, messages: seq<Message>)
    ensures var cs := CallsTo(Providers(plan, env)[..Dispatch(Outcomes(world)).invoked], messages);
      && (Yields(world.groq) ==> |cs| == 1 && cs[0].model == GroqModel(plan))
      && (!Yields(world.groq) ==> |cs| == 2 && cs[1].model == "gemini-1.5-pro")
      && (forall k :: 0 <= k < |cs| ==> cs[k].messages == messages)
  {
    var d := Dispatch(Outcomes(world));
    var ps := Providers(plan, env);
    if Yields(world.groq) {
      DispatchFirst(Outcomes(world), 0);
      assert d.invoked == 1;
    } else {
      assert Outcomes(world)[1..] == [world.gemini];
      assert d.invoked == 2;
      assert ps[..2] == ps;
    }
  }

  /** Past the gate, the provider calls are the dispatched prefix of the
      plan's providers, all carrying one message list. */
  lemma AdmittedCalls(event: Event, env: Env, fetched: Fetched, world: World) returns (messages: seq<Message>)
    requires Admitted(event, fetched) && !LimitReached(PlanOf(fetched), fetched.usage)
    ensures Handle(event, env, fetched, world).calls
      == CallsTo(Providers(PlanOf(fetched), env)[..Dispatch(Outcomes(world)).invoked], messages)
    ensures messages == Context(event.body.value, fetched.config.value, fetched.config.value.client.value, fetched)
  {
    var config := fetched.config.value;
    messages := Context(event.body.value, config, config.client.value, fetched);
  }

  /** The messages every provider receives: the system prompt built from
      the configuration and the products (none when the product query
      failed), then the session's last four turns oldest first (none when
      the history query failed), then the user's message. */
  lemma ContextMessages(req: ChatRequest, config: BotConfig, tenant: Tenant, fetched: Fetched)
    ensures var m := Context(req, config, tenant, fetched);
      var prompt := SystemPrompt(config.botName, tenant.businessName, config.persona, config.knowledge, fetched.products.GetOr([]));
      && 2 <= |m| <= HistoryLimit + 2
      && m[0] == Message("system", prompt)
      && m[|m| - 1] == Message("user", req.message)
      && (fetched.conversations.None? ==> |m| == 2)
      && (fetched.conversations.Some? ==> m[1..|m| - 1] == RecentChronological(fetched.conversations.value, req.sessionId))
  {
    if fetched.conversations.Some? {
      ContextBounded(fetched.conversations.value, req.sessionId,
        SystemPrompt(config.botName, tenant.businessName, config.persona, config.knowledge, fetched.products.GetOr([])), req.message);
    }
  }

  /** Past the gate, the first provider call carries the system prompt of
      this tenant, the session's recent turns oldest first, and the user's
      message, and every later call carries the same list. */
  lemma ContextSent(event: Event, env: Env, fetched: Fetched, world: World, log: seq<StoredTurn>)
    requires Admitted(event, fetched) && !LimitReached(PlanOf(fetched), fetched.usage)
    requires fetched.conversations == Some(log)
    ensures var h := Handle(event, env, fetched, world);
      var req := event.body.value;
      var config := fetched.config.value;
      var tenant := config.client.value;
      && |h.calls| >= 1
      && var m := h.calls[0].messages;
      && 2 <= |m| <= HistoryLimit + 2
      && m[0] == Message("system", SystemPrompt(config.botName, tenant.businessName, config.persona, config.knowledge, fetched.products.GetOr([])))
      && m[|m| - 1] == Message("user", req.message)
      && m[1..|m| - 1] == RecentChronological(log, req.sessionId)
      && forall k :: 0 <= k < |h.calls| ==> h.calls[k].messages == m
  {
    var messages := AdmittedCalls(event, env, fetched, world);
    CallsInOrder(PlanOf(fetched), env, world, messages);
    ContextMessages(event.body.value, fetched.config.value, fetched.config.value.client.value, fetched);
  }

  /** The reply that reaches the handler: the first non-empty content. */
  function FirstReply(world: World): Option<string> {
    Dispatch(Outcomes(world)).reply
  }

  /** Past the gate, with a provider reply, the handler's outcome is the post-processing of that reply. */
  lemma HandleAfterReply(event: Event, env: Env, fetched: Fetched, world: World)
    requires Admitted(event, fetched) && !LimitReached(PlanOf(fetched), fetched.usage)
    requires FirstReply(world).Some?
    ensures var h := Handle(event, env, fetched, world);
      (h.response, h.effects) == PostProcess(event.body.value, fetched.config.value.client.value, env, world, FirstReply(world).value)
  {
  }

  /** Without a provider reply to post-process, the handler writes nothing. */
  lemma NothingWrittenWithoutReply(event: Event, env: Env, fetched: Fetched, world: World)
    requires !(Admitted(event, fetched) && !LimitReached(PlanOf(fetched), fetched.usage) && FirstReply(world).Some?)
    ensures Handle(event, env, fetched, world).effects == []
  {
    if event.httpMethod == "OPTIONS" {
    } else if event.body.None? || fetched.config.None? || fetched.config.value.client.None? {
    } else if LimitReached(PlanOf(fetched), fetched.usage) {
    } else {
      assert Dispatch(Outcomes(world)).reply.None?;
    }
  }

  /** A reply without the lead keyword is delivered and stored trimmed, with
      exactly one usage increment and one turn pair, and no lead or alert. */
  lemma NoDirectivePassesThrough(event: Event, env: Env, fetched: Fetched, world: World)
    requires Admitted(event, fetched) && !LimitReached(PlanOf(fetched), fetched.usage)
    requires FirstReply(world).Some? && !Contains(FirstReply(world).value, LeadKeyword)
    ensures var h := Handle(event, env, fetched, world);
      var req := event.body.value;
      var clean := Trim(FirstReply(world).value);
      && h.response == Respond(200, ReplyJson(clean))
      && h.effects == [IncrementUsage(req.clientId), InsertTurns(req.clientId, req.sessionId, req.message, clean)]
  {
    HandleAfterReply(event, env, fetched, world);
    PostProcessPlain(event.body.value, fetched.config.value.client.value, env, world, FirstReply(world).value);
  }

  /** Post-processing of a reply without a directive answers and commits
      the trimmed reply. */
  lemma PostProcessPlain(req: ChatRequest, tenant: Tenant, env: Env, world: World, aiReply: string)
    requires !Contains(aiReply, LeadKeyword)
    ensures PostProcess(req, tenant, env, world, aiReply) == (Respond(200, ReplyJson(Trim(aiReply))), Commit(req, Trim(aiReply)))
  {
  }

  /** A reply carrying a well-formed lead marker yields exactly one lead
      insert (and one alert when a channel is configured), and the reply
      delivered and stored is the reply with that marker removed, trimmed. */
  lemma LeadCaptured(event: Event, env: Env, fetched: Fetched, world: World, u: string, a: string, b: string, c: string, v: string)
    requires Admitted(event, fetched) && !LimitReached(PlanOf(fetched), fetched.usage)
    requires world.alertReachable
    requires FirstReply(world) == Some(u + (LeadOpen + (a + "|" + b + "|" + c) + "]") + v)
    requires !Contains(u, LeadOpen) && FieldText(a) && FieldText(b) && FieldText(c)
    ensures var h := Handle(event, env, fetched, world);
      var req := event.body.value;
      var tenant := fetched.config.value.client.value;
      var lead := Lead(Trim(a), Some(Trim(b)), Some(Trim(c)));
      var alerts := if AlertConfigured(tenant, env) then [SendAlert(tenant.telegramChatId.value, AlertText(lead))] else [];
      && h.response == Respond(200, ReplyJson(Trim(u + v)))
      && h.effects == [InsertLead(req.clientId, lead)] + alerts + Commit(req, Trim(u + v))
  {
    DirectiveRoundTrip(u, a, b, c, v);
    HandleAfterReply(event, env, fetched, world);
    PostProcessCaptured(event.body.value, fetched.config.value.client.value, env, world, FirstReply(world).value);
    AfterLeadDelivered(event.body.value, fetched.config.value.client.value, env, world, Lead(Trim(a), Some(Trim(b)), Some(Trim(c))), Trim(u + v));
  }

  /** Post-processing of a reply with a captured lead is the lead path. */
  lemma PostProcessCaptured(req: ChatRequest, tenant: Tenant, env: Env, world: World, aiReply: string)
    requires Interpret(aiReply).Captured?
    ensures PostProcess(req, tenant, env, world, aiReply)
      == AfterLead(req, tenant, env, world, Interpret(aiReply).lead, Interpret(aiReply).reply)
  {
  }

  /** The lead path when the alert goes out. */
  lemma AfterLeadDelivered(req: ChatRequest, tenant: Tenant, env: Env, world: World, lead: Lead, clean: string)
    requires world.alertReachable
    ensures var alerts := if AlertConfigured(tenant, env) then [SendAlert(tenant.telegramChatId.value, AlertText(lead))] else [];
      AfterLead(req, tenant, env, world, lead, clean) == (Respond(200, ReplyJson(clean)), [InsertLead(req.clientId, lead)] + alerts + Commit(req, clean))
  {
    if AlertConfigured(tenant, env) {
      assert LeadEffects(req, tenant, env, world, lead).0 == [InsertLead(req.clientId, lead)] + [SendAlert(tenant.telegramChatId.value, AlertText(lead))];
    } else {
      assert LeadEffects(req, tenant, env, world, lead).0 == [InsertLead(req.clientId, lead)] + [];
    }
  }

  /** A lead keyword the pattern does not match makes the handler fail
      with 500 before anything is written. */
  lemma MalformedLeadFails(event: Event, env: Env, fetched: Fetched, world: World)
    requires Admitted(event, fetched) && !LimitReached(PlanOf(fetched), fetched.usage)
    requires FirstReply(world).Some? && Interpret(FirstReply(world).value).Malformed?
    ensures var h := Handle(event, env, fetched, world);
      h.response == ServerError && h.effects == []
  {
  }

  /** Post-processing commits exactly one increment and one turn pair
      when it answers 200, and none when it fails. */
  lemma PostProcessCounts(req: ChatRequest, tenant: Tenant, env: Env, world: World, aiReply: string)
    ensures var (response, effects) := PostProcess(req, tenant, env, world, aiReply);
      && (response.status == 200 ==> Count(effects, IsIncrement) == 1 && Count(effects, IsTurnInsert) == 1)
      && (response.status != 200 ==> Count(effects, IsIncrement) == 0 && Count(effects, IsTurnInsert) == 0)
      && (!AlertConfigured(tenant, env) ==> Count(effects, IsAlert) == 0)
  {
    match Interpret(aiReply)
    case Plain(clean) =>
    case Captured(lead, clean) =>
      AfterLeadCounts(req, tenant, env, world, lead, clean);
    case Malformed =>
  }

  lemma AfterLeadCounts(req: ChatRequest, tenant: Tenant, env: Env, world: World, lead: Lead, clean: string)
    ensures var (response, effects) := AfterLead(req, tenant, env, world, lead, clean);
      && (response.status == 200 ==> Count(effects, IsIncrement) == 1 && Count(effects, IsTurnInsert) == 1)
      && (response.status != 200 ==> Count(effects, IsIncrement) == 0 && Count(effects, IsTurnInsert) == 0)
      && (!AlertConfigured(tenant, env) ==> Count(effects, IsAlert) == 0)
  {
    var (le, threw) := LeadEffects(req, tenant, env, world, lead);
    var c := Commit(req, clean);
    assert Count(c, IsIncrement) == 1 && Count(c, IsTurnInsert) == 1 && Count(c, IsAlert) == 0;
    assert Count(le, IsIncrement) == 0 && Count(le, IsTurnInsert) == 0;
    if !AlertConfigured(tenant, env) {
      assert Count(le, IsAlert) == 0;
    }
    if !threw {
      CountAppend(le, c, IsIncrement);
      CountAppend(le, c, IsTurnInsert);
      CountAppend(le, c, IsAlert);
    }
  }

  /** A successful reply increments usage exactly once and stores exactly
      one turn pair; every other outcome increments nothing and stores
      nothing; and no alert is sent without a configured channel. */
  lemma UsageCountedOnce(event: Event, env: Env, fetched: Fetched, world: World)
    ensures var h := Handle(event, env, fetched, world);
      && (h.response.status == 200 && h.effects != [] ==> Count(h.effects, IsIncrement) == 1 && Count(h.effects, IsTurnInsert) == 1)
      && (h.response.status != 200 ==> Count(h.effects, IsIncrement) == 0 && Count(h.effects, IsTurnInsert) == 0)
      && (Admitted(event, fetched) && !AlertConfigured(fetched.config.value.client.value, env) ==> Count(h.effects, IsAlert) == 0)
  {
    if Admitted(event, fetched) && !LimitReached(PlanOf(fetched), fetched.usage) && FirstReply(world).Some? {
      HandleAfterReply(event, env, fetched, world);
      PostProcessCounts(event.body.value, fetched.config.value.client.value, env, world, FirstReply(world).value);
    } else {
      NothingWrittenWithoutReply(event, env, fetched, world);
    }
  }

  /** As written, an alert whose `fetch` rejects turns the whole request
      into a 500 after the lead was inserted: the reply is lost and no turn
      or usage is recorded. */
  lemma AlertFailureLosesReply(event: Event, env: Env, fetched: Fetched, world: World, u: string, a: string, v: string)
    requires Admitted(event, fetched) && !LimitReached(PlanOf(fetched), fetched.usage)
    requires AlertConfigured(fetched.config.value.client.value, env) && !world.alertReachable
    requires FirstReply(world) == Some(u + (LeadOpen + a + "]") + v)
    requires !Contains(u, LeadOpen) && FieldText(a)
    ensures var h := Handle(event, env, fetched, world);
      && h.response == ServerError
      && |h.effects| == 2 && h.effects[0].InsertLead? && h.effects[1].SendAlert?
  {
    SingleFieldLead(u, a, v);
    HandleAfterReply(event, env, fetched, world);
  }

  /** Scenario: an active Lite tenant at 29 of 30 messages,
      an empty session, "Hi", and a plain provider answer (no `[`, no
      surrounding whitespace). */
  lemma ScenarioUnderLimit(env: Env, config: BotConfig, world: World, text: string)
    requires config.client == Some(Tenant("t1 business", "Lite", None))
    requires world.groq == Content(text)
    requires text != [] && '[' !in text && !IsJsSpace(text[0]) && !IsJsSpace(text[|text| - 1])
    ensures var event := Event("POST", Some(ChatRequest("t1", "s1", "Hi")));
      var fetched := Fetched(Some(config), Some([]), Some(29), Some([]));
      var h := Handle(event, env, fetched, world);
      && h.response.body == ReplyJson(text)
      && h.effects == [IncrementUsage("t1"), InsertTurns("t1", "s1", "Hi", text)]
      && UsageAfter(29, h.effects) == 30
  {
    assert !LimitReached("Lite", Some(29));
    CleanAnswerCommitted(Event("POST", Some(ChatRequest("t1", "s1", "Hi"))), env, Fetched(Some(config), Some([]), Some(29), Some([])), world, text);
  }

  /** Past the gate, a first provider answer that needs no trimming and
      holds no `[` is delivered as it is and counted once. */
  lemma CleanAnswerCommitted(event: Event, env: Env, fetched: Fetched, world: World, text: string)
    requires Admitted(event, fetched) && !LimitReached(PlanOf(fetched), fetched.usage)
    requires world.groq == Content(text)
    requires text != [] && '[' !in text && !IsJsSpace(text[0]) && !IsJsSpace(text[|text| - 1])
    ensures var h := Handle(event, env, fetched, world);
      && h.response.body == ReplyJson(text)
      && h.effects == Commit(event.body.value, text)
      && UsageAfter(CurrentUsage(fetched.usage), h.effects) == CurrentUsage(fetched.usage) + 1
  {
    AbsentHeadNotContained(text, LeadKeyword);
    TrimNoop(text);
    DispatchFirst(Outcomes(world), 0);
    NoDirectivePassesThrough(event, env, fetched, world);
  }

  /** The same tenant at 30 messages gets the limit reply and nothing is counted. */
  lemma ScenarioAtLimit(env: Env, config: BotConfig, world: World)
    requires config.client == Some(Tenant("t1 business", "Lite", None))
    ensures var event := Event("POST", Some(ChatRequest("t1", "s1", "Hi")));
      var fetched := Fetched(Some(config), Some([]), Some(30), Some([]));
      var h := Handle(event, env, fetched, world);
      && h.response.body == ReplyJson(LimitReply)
      && h.calls == [] && h.effects == []
      && UsageAfter(30, h.effects) == 30
  {
  }
}

=== FILE: option.dfy ===
/** The optional value used for JavaScript's `undefined`/`null` and for absent rows. */
module Optional {

  datatype Option<+T> = None | Some(value: T) {

    /** The value, or `fallback` when absent: JavaScript's `x ?? fallback`. */
    function GetOr(fallback: T): T {
      match this
      case Some(v) => v
      case None => fallback
    }
  }
}

=== FILE: prompt.dfy ===
/**
  The system instruction block of the main chat handler: the tenant's bot
  identity, persona and free-text knowledge, then the product list, one
  product per line, then the fixed rules (including the image and lead
  directive grammar the model is asked to emit).
 */
module Prompt {

  import opened JsStrings

  /** A `products` row as the template literal renders it; price and image
      reference are carried as their rendered text. */
  datatype Product = Product(name: string, description: string, price: string, imageUrl: string)

  /** `● name: description (Rs. price) [IMAGE: url]`. */
  function ProductLine(p: Product): string {
    "\U{25CF} " + p.name + ": " + p.description + " (Rs. " + p.price + ") [IMAGE: " + p.imageUrl + "]"
  }

  function ProductLines(products: seq<Product>): (lines: seq<string>)
    ensures |lines| == |products|
    ensures forall k :: 0 <= k < |products| ==> lines[k] == ProductLine(products[k])
  {
    seq(|products|, k requires 0 <= k < |products| => ProductLine(products[k]))
  }

  /** `productKB`: the product lines joined with newlines. */
  function KnowledgeBlock(products: seq<Product>): string {
    Join(ProductLines(products), '\n')
  }

  predicate SingleLine(p: Product) {
    '\n' !in p.name && '\n' !in p.description && '\n' !in p.price && '\n' !in p.imageUrl
  }

  /** A product with no newline in its fields renders as a line with none. */
  lemma ProductLineIsOneLine(p: Product)
    requires SingleLine(p)
    ensures '\n' !in ProductLine(p)
  {
  }

  /** Every product becomes exactly one line of the block, in order; no
      products give an empty block. */
  lemma KnowledgeBlockLines(products: seq<Product>)
    requires forall k :: 0 <= k < |products| ==> SingleLine(products[k])
    ensures products == [] ==> KnowledgeBlock(products) == ""
    ensures products != [] ==> Split(KnowledgeBlock(products), '\n') == ProductLines(products)
  {
    if products != [] {
      var lines := ProductLines(products);
      forall k | 0 <= k < |lines| ensures '\n' !in lines[k] {
        ProductLineIsOneLine(products[k]);
      }
      SplitJoin(lines, '\n');
    }
  }

  /** Who the bot is: `You are <bot>, staff of <business>.` */
  function Identity(botName: string, businessName: string): string {
    "You are " + botName + ", staff of " + businessName + "."
  }

  const IdentityLead: string := "\n            Identity: "

  /** The tenant's persona and free-text knowledge, up to the product list. */
  function PromptMiddle(persona: string, knowledge: string): string {
    "\n            Persona: " + persona + "\n"
    + "            Knowledge: " + knowledge + "\n"
    + "            Products: \n"
    + "            "
  }

  /** Everything ahead of the product list. */
  function PromptHead(botName: string, businessName: string, persona: string, knowledge: string): string {
    IdentityLead + Identity(botName, businessName) + PromptMiddle(persona, knowledge)
  }

  /** The fixed rules after the products, including the directive grammar. */
  const PromptRules: string :=
    "\n            \n"
    + "            RULES:\n"
    + "            1. Use [IMAGE: URL] tag whenever you mention a product.\n"
    + "            2. If lead info (Name/Phone) is shared, end reply with [LEAD_DATA: Name | Phone | Interest].\n"
    + "            3. Answer in the user's language (Sinhala/English).\n"
    + "        "

  /** The `systemPrompt` template literal. */
  function SystemPrompt(botName: string, businessName: string, persona: string, knowledge: string, products: seq<Product>): (r: string)
    ensures OccursAt(r, KnowledgeBlock(products), |PromptHead(botName, businessName, persona, knowledge)|)
    ensures OccursAt(r, PromptRules, |r| - |PromptRules|)
    ensures OccursAt(r, Identity(botName, businessName), |IdentityLead|)
  {
    var head := PromptHead(botName, businessName, persona, knowledge);
    var kb := KnowledgeBlock(products);
    OccursInMiddle(IdentityLead, Identity(botName, businessName), PromptMiddle(persona, knowledge));
    PieceLayout(head, kb, PromptRules);
    head + kb + PromptRules
  }

  /** Where each piece sits in a three-piece concatenation, and an
      occurrence in the first piece stays where it is. */
  lemma PieceLayout(x: string, y: string, z: string)
    ensures OccursAt(x + y + z, y, |x|)
    ensures OccursAt(x + y + z, z, |x + y + z| - |z|)
    ensures forall pat, i :: OccursAt(x, pat, i) ==> OccursAt(x + y + z, pat, i)
  {
    OccursInMiddle(x, y, z);
    OccursInMiddle(x + y, z, "");
    assert x + y + z + "" == x + y + z;
    forall pat, i | OccursAt(x, pat, i) ensures OccursAt(x + y + z, pat, i) {
      assert (x + y + z)[i..i + |pat|] == x[i..i + |pat|];
    }
  }
}

=== FILE: quota.dfy ===
/**
  The plan quota gate of the main chat handler: a plan-to-ceiling table
  (Lite 30, Standard 70, Pro 150) with a default of 30 for any other plan,
  compared against today's usage count (0 when no usage row exists). The
  gate runs before any provider is called.
 */
module Quota {

  import opened Optional

  const LimitReply: string := "Daily limit reached. Contact us for an upgrade!"

  /** The `|| 30` fallback for plans missing from the table. */
  const DefaultCeiling: nat := 30

  /** The tiers in ascending order. */
  const Tiers: seq<string> := ["Lite", "Standard", "Pro"]

  /** Daily message ceiling of a plan, reading only the table's own entries. */
  function Ceiling(plan: string): (c: nat)
    ensures plan == "Lite" ==> c == 30
    ensures plan == "Standard" ==> c == 70
    ensures plan == "Pro" ==> c == 150
    ensures plan !in Tiers ==> c == DefaultCeiling
    ensures DefaultCeiling <= c <= 150
  {
    if plan == "Lite" then 30
    else if plan == "Standard" then 70
    else if plan == "Pro" then 150
    else DefaultCeiling
  }

  /** `usageRes.data?.chat_count || 0`. */
  function CurrentUsage(row: Option<int>): int {
    row.GetOr(0)
  }

  /** The gate closes once today's usage reaches the plan's ceiling. */
  predicate LimitReached(plan: string, usage: Option<int>) {
    CurrentUsage(usage) >= Ceiling(plan)
  }

  /** Ceilings rise strictly with the tier. */
  lemma CeilingsAscend(i: nat, j: nat)
    requires i < j < |Tiers|
    ensures Ceiling(Tiers[i]) < Ceiling(Tiers[j])
  {
    assert Tiers[0] == "Lite" && Tiers[1] == "Standard" && Tiers[2] == "Pro";
  }

  /** No plan, known or not, has unlimited access: from 150 messages on
      every tenant is stopped, and an unknown plan is held to the lowest ceiling. */
  lemma GateAlwaysBounded(plan: string, usage: Option<int>)
    ensures CurrentUsage(usage) >= 150 ==> LimitReached(plan, usage)
    ensures plan !in Tiers ==> (LimitReached(plan, usage) <==> CurrentUsage(usage) >= DefaultCeiling)
    ensures usage.None? ==> !LimitReached(plan, usage)
  {
  }

  // ------------------------------------------------------------------
  // The table lookup as written: `limits[plan] || 30` on a plain object
  // literal also finds the properties every object inherits.

  /** What `limits[plan] || 30` evaluates to: a number, or an inherited
      non-numeric property (a method or the prototype object). */
  datatype LookedUp = Number(n: int) | NonNumeric

  /** Property names every object literal inherits from `Object.prototype`. */
  const InheritedKeys: set<string> := {
    "constructor", "hasOwnProperty", "isPrototypeOf", "propertyIsEnumerable",
    "toLocaleString", "toString", "valueOf", "__proto__",
    "__defineGetter__", "__defineSetter__", "__lookupGetter__", "__lookupSetter__"
  }

  function CeilingAsWritten(plan: string): LookedUp {
    if plan in Tiers then Number(Ceiling(plan))
    else if plan in InheritedKeys then NonNumeric
    else Number(DefaultCeiling)
  }

  /** `currentUsage >= (limits[plan] || 30)`: comparing a number with a
      non-numeric object converts it to NaN, and the comparison is false. */
  predicate LimitReachedAsWritten(plan: string, usage: Option<int>) {
    match CeilingAsWritten(plan)
    case Number(n) => CurrentUsage(usage) >= n
    case NonNumeric => false
  }

  /** As written, a plan named like an inherited property is never stopped,
      whatever its usage. */
  lemma InheritedPlanIsUnlimited(usage: int)
    ensures !LimitReachedAsWritten("toString", Some(usage))
    ensures usage >= 150 ==> LimitReached("toString", Some(usage))
  {
    assert "toString" in InheritedKeys;
    assert "toString" !in Tiers;
  }

  /** Outside those names the code as written and the corrected gate agree. */
  lemma AsWrittenAgreesElsewhere(plan: string, usage: Option<int>)
    requires plan !in InheritedKeys
    ensures LimitReachedAsWritten(plan, usage) <==> LimitReached(plan, usage)
  {
  }
}

=== FILE: router.dfy ===
/**
  The router handler (`chat.js`): a preflight answer and a method gate, the
  client status gate, and a dispatch on the request `type`. `chat` sends the
  session's recent turns to one Groq model under a key drawn at random from
  the `GROQ_KEY_` pool; `notify` forwards a text to the tenant's Telegram
  chat; anything else is refused with 400. The client lookup, the history
  query, the provider answer, the Telegram answer and the random draw are
  inputs, gathered in a `RouterWorld`.
 */
module Router {

  import opened Optional
  import opened JsStrings
  import opened History
  import opened Failover
  import opened Http
  import MainChat

  /** The fields of the request body the router reads. */
  datatype RouterRequest = RouterRequest(
    clientId: string,
    kind: Option<string>,
    sessionId: string,
    message: string,
    notificationText: string)

  /** The body after `JSON.parse` and destructuring; a body either of them
      rejects carries the error message. */
  datatype RouterBody = Unparseable(reason: string) | Parsed(request: RouterRequest)

  datatype RouterEvent = RouterEvent(httpMethod: string, body: RouterBody)

  /** A `clients` row. */
  datatype Client = Client(name: string, status: string, telegramChatId: Option<string>)

  /** The `.single()` lookup: an error (including no row), or the row. */
  datatype Lookup = LookupFailed | Found(client: Client)

  /** The Telegram request threw (fetch or JSON decoding), or answered with
      this `ok` field (absent when the answer had none). */
  datatype TelegramOutcome = TelegramThrew(message: string) | TelegramAnswered(ok: Option<bool>)

  /** The process environment, variable names and values in `Object.keys` order. */
  datatype RouterEnv = RouterEnv(vars: seq<(string, string)>)

  /** What the outside world answers, and the `Math.random()` draw. */
  datatype RouterWorld = RouterWorld(
    client: Lookup,
    conversations: Option<seq<StoredTurn>>,
    groq: Outcome,
    telegram: TelegramOutcome,
    random: real)

  const AllowOrigin: (string, string) := ("Access-Control-Allow-Origin", "*")

  const PreflightHeaders: seq<(string, string)> := [
    AllowOrigin,
    ("Access-Control-Allow-Headers", "Content-Type, Authorization"),
    ("Access-Control-Allow-Methods", "GET, POST, OPTIONS")
  ]

  const JsonHeaders: seq<(string, string)> := [("Content-Type", "application/json"), AllowOrigin]

  function JsonResponse(status: nat, body: Body): Response {
    Response(status, JsonHeaders, body)
  }

  /** The `catch` branch, which reports the error message. */
  function Failure(details: string): Response {
    JsonResponse(500, ErrorJson("Server Error", Some(details)))
  }

  const Preflight: Response := Response(200, PreflightHeaders, Text("OK"))
  const MethodNotAllowed: Response := Response(405, [AllowOrigin], ErrorJson("Method Not Allowed", None))
  const Unauthorized: Response := JsonResponse(200, ErrorJson("Unauthorized or Inactive Client", None))
  const InvalidType: Response := JsonResponse(400, ErrorJson("Invalid Request Type", None))

  const RouterModel: string := "llama-3.3-70b-versatile"
  const FallbackReply: string := "API Error: No response from AI."
  const GroqKeyPrefix: string := "GROQ_KEY_"
  const TelegramTokenName: string := "TELEGRAM_BOT_TOKEN"

  // ------------------------------------------------------------ environment

  /** `process.env[name]`: the value of the first variable with that name. */
  function EnvValue(vars: seq<(string, string)>, name: string): (v: Option<string>)
    ensures v.Some? <==> exists k :: 0 <= k < |vars| && vars[k].0 == name
    ensures v.Some? ==> exists k :: 0 <= k < |vars| && vars[k] == (name, v.value) && forall j :: 0 <= j < k ==> vars[j].0 != name
  {
    if |vars| == 0 then None
    else if vars[0].0 == name then Some(vars[0].1)
    else
      var v := EnvValue(vars[1..], name);
      assert forall k :: 1 <= k < |vars| ==> vars[k] == vars[1..][k - 1];
      v
  }

  /** `getGroqKeys`: the values of the variables whose names start with
      `GROQ_KEY_`, in variable order. */
  function GroqKeys(vars: seq<(string, string)>): (keys: seq<string>)
    ensures |keys| <= |vars|
    ensures forall k :: 0 <= k < |keys| ==> exists j :: 0 <= j < |vars| && OccursAt(vars[j].0, GroqKeyPrefix, 0) && vars[j].1 == keys[k]
    ensures forall j :: 0 <= j < |vars| && OccursAt(vars[j].0, GroqKeyPrefix, 0) ==> vars[j].1 in keys
  {
    if |vars| == 0 then []
    else
      var rest := GroqKeys(vars[1..]);
      assert forall j :: 1 <= j < |vars| ==> vars[j] == vars[1..][j - 1];
      if OccursAt(vars[0].0, GroqKeyPrefix, 0) then [vars[0].1] + rest else rest
  }

  /** The pool keeps variable order: the keys of two runs of variables are
      the keys of the first run followed by those of the second. */
  lemma {:induction false} GroqKeysSplit(a: seq<(string, string)>, b: seq<(string, string)>)
    ensures GroqKeys(a + b) == GroqKeys(a) + GroqKeys(b)
    decreases |a|
  {
    if |a| == 0 {
      assert a + b == b;
    } else {
      assert (a + b)[0] == a[0];
      assert (a + b)[1..] == a[1..] + b;
      GroqKeysSplit(a[1..], b);
    }
  }

  /** A single variable contributes its value exactly when its name starts with `GROQ_KEY_`. */
  lemma GroqKeysSingle(name: string, value: string)
    ensures GroqKeys([(name, value)]) == if OccursAt(name, GroqKeyPrefix, 0) then [value] else []
  {
    assert [(name, value)][1..] == [];
  }

  /** `Math.floor(Math.random() * n)`. */
  function PickIndex(r: real, n: nat): (i: int)
    requires 0.0 <= r < 1.0
    ensures n > 0 ==> 0 <= i < n
    ensures n == 0 ==> i == 0
  {
    var x := r * n as real;
    assert 0.0 <= x;
    assert n > 0 ==> x < n as real by {
      if n > 0 {
        assert n as real - x == (1.0 - r) * n as real;
      }
    }
    x.Floor
  }

  /** `keys[Math.floor(Math.random() * keys.length)]`; an empty pool gives
      `undefined`. */
  function ChosenKey(keys: seq<string>, r: real): (key: Option<string>)
    requires 0.0 <= r < 1.0
    ensures key.Some? <==> |keys| > 0
    ensures key.Some? ==> key.value in keys
  {
    if |keys| == 0 then None else Some(keys[PickIndex(r, |keys|)])
  }

  // ----------------------------------------------------------------- handler

  /** The client gate passes only an active client that was found. */
  predicate Active(lookup: Lookup) {
    lookup.Found? && lookup.client.status == "active"
  }

  function SystemLine(businessName: string): string {
    "You are Ria, AI assistant for " + businessName + ". Provide concise English answers."
  }

  /** `choices[0].message.content || "API Error: ..."`. */
  function BotReply(o: Outcome): string {
    if Yields(o) then o.text else FallbackReply
  }

  /** The `chat` branch for an active client. */
  function Chat(req: RouterRequest, client: Client, env: RouterEnv, world: RouterWorld): (h: Handled)
    requires 0.0 <= world.random < 1.0
    ensures |h.calls| == 1 && h.calls[0].url == MainChat.GroqUrl && h.calls[0].model == RouterModel
    ensures h.response.status == 200 || h.response.status == 500
  {
    var key := ChosenKey(GroqKeys(env.vars), world.random);
    var window := HistoryWindow(RecentFetch(world.conversations, req.sessionId));
    var call := ProviderCall(MainChat.GroqUrl, RouterModel, key, Assemble(SystemLine(client.name), window, req.message));
    match world.groq
    case Throw(msg) => Handled(Failure(msg), [call], [])
    case _ =>
      var reply := BotReply(world.groq);
      Handled(JsonResponse(200, ReplyJson(reply)), [call],
              [InsertTurns(req.clientId, req.sessionId, req.message, reply), IncrementUsage(req.clientId)])
  }

  /** The `notify` branch, taken only with a chat id and a bot token. */
  predicate NotifyConfigured(client: Client, env: RouterEnv) {
    Truthy(client.telegramChatId) && Truthy(EnvValue(env.vars, TelegramTokenName))
  }

  function Notify(req: RouterRequest, client: Client, world: RouterWorld): (h: Handled)
    requires Truthy(client.telegramChatId)
    ensures h.calls == [] && h.effects == [SendAlert(client.telegramChatId.value, req.notificationText)]
    ensures h.response.status == 200 <==> world.telegram.TelegramAnswered?
  {
    var alert := SendAlert(client.telegramChatId.value, req.notificationText);
    match world.telegram
    case TelegramThrew(msg) => Handled(Failure(msg), [], [alert])
    case TelegramAnswered(ok) => Handled(JsonResponse(200, SuccessJson(ok)), [], [alert])
  }

  /** The handler. */
  function Route(event: RouterEvent, env: RouterEnv, world: RouterWorld): (h: Handled)
    requires 0.0 <= world.random < 1.0
    ensures h.response.status in {200, 400, 405, 500}
    ensures h.calls != [] || h.effects != [] ==>
      event.httpMethod == "POST" && event.body.Parsed? && Active(world.client)
    ensures |h.calls| <= 1
  {
    if event.httpMethod == "OPTIONS" then Handled(Preflight, [], [])
    else if event.httpMethod != "POST" then Handled(MethodNotAllowed, [], [])
    else
      match event.body
      case Unparseable(reason) => Handled(Failure(reason), [], [])
      case Parsed(req) =>
        if !Active(world.client) then Handled(Unauthorized, [], [])
        else
          var client := world.client.client;
          if req.kind == Some("chat") then Chat(req, client, env, world)
          else if req.kind == Some("notify") && NotifyConfigured(client, env) then Notify(req, client, world)
          else Handled(InvalidType, [], [])
  }

  // ------------------------------------------------------------------ lemmas

  /** A preflight gets "OK" with the permissive headers, any other method
      but POST gets 405, and a 405 means exactly that. */
  lemma MethodGate(event: RouterEvent, env: RouterEnv, world: RouterWorld)
    requires 0.0 <= world.random < 1.0
    ensures var h := Route(event, env, world);
      && (event.httpMethod == "OPTIONS" ==> h == Handled(Preflight, [], []))
      && (h.response.status == 405 <==> event.httpMethod != "OPTIONS" && event.httpMethod != "POST")
      && (h.response.status == 405 ==> h == Handled(MethodNotAllowed, [], []))
  {
  }

  /** A POST whose client lookup fails, finds nothing, or finds an inactive
      client gets the 200 refusal with no provider call and no write. */
  lemma ClientGate(event: RouterEvent, env: RouterEnv, world: RouterWorld)
    requires 0.0 <= world.random < 1.0
    requires event.httpMethod == "POST" && event.body.Parsed?
    ensures !Active(world.client) <==> Route(event, env, world) == Handled(Unauthorized, [], [])
  {
    if Active(world.client) {
      var req := event.body.request;
      var client := world.client.client;
      if req.kind == Some("chat") {
        assert |Route(event, env, world).calls| == 1;
      } else if req.kind == Some("notify") && NotifyConfigured(client, env) {
        assert Route(event, env, world).effects != [];
      }
    }
  }

  /** A request that passes both gates. */
  predicate Authorized(event: RouterEvent, world: RouterWorld) {
    event.httpMethod == "POST" && event.body.Parsed? && Active(world.client)
  }

  /** A `chat` request sends one Groq call whose messages are the fixed
      system line, the session's (at most four) most recent turns oldest
      first, and the user message. */
  lemma ChatContext(event: RouterEvent, env: RouterEnv, world: RouterWorld, log: seq<StoredTurn>)
    requires 0.0 <= world.random < 1.0
    requires Authorized(event, world) && event.body.request.kind == Some("chat")
    requires world.conversations == Some(log)
    ensures var h := Route(event, env, world);
      var req := event.body.request;
      var m := h.calls[0].messages;
      && |h.calls| == 1
      && h.calls[0].model == RouterModel
      && 2 <= |m| <= HistoryLimit + 2
      && m[0] == Message("system", SystemLine(world.client.client.name))
      && m[|m| - 1] == Message("user", req.message)
      && m[1..|m| - 1] == RecentChronological(log, req.sessionId)
  {
    var req := event.body.request;
    ContextBounded(log, req.sessionId, SystemLine(world.client.client.name), req.message);
  }

  /** A provider answer without content is replaced by the fallback text,
      which is returned, stored as the assistant turn next to the user turn,
      and counted once. */
  lemma ChatFallback(event: RouterEvent, env: RouterEnv, world: RouterWorld)
    requires 0.0 <= world.random < 1.0
    requires Authorized(event, world) && event.body.request.kind == Some("chat")
    requires !world.groq.Throw? && !Yields(world.groq)
    ensures var h := Route(event, env, world);
      var req := event.body.request;
      && h.response == JsonResponse(200, ReplyJson(FallbackReply))
      && h.effects == [InsertTurns(req.clientId, req.sessionId, req.message, FallbackReply), IncrementUsage(req.clientId)]
      && Count(h.effects, IsIncrement) == 1
  {
  }

  /** A provider answer with content is returned and stored as it is; a
      provider that throws gives 500 with its message and nothing stored. */
  lemma ChatOutcome(event: RouterEvent, env: RouterEnv, world: RouterWorld)
    requires 0.0 <= world.random < 1.0
    requires Authorized(event, world) && event.body.request.kind == Some("chat")
    ensures var h := Route(event, env, world);
      var req := event.body.request;
      && (Yields(world.groq) ==>
            (h.response == JsonResponse(200, ReplyJson(world.groq.text))
             && h.effects == [InsertTurns(req.clientId, req.sessionId, req.message, world.groq.text), IncrementUsage(req.clientId)]))
      && (world.groq.Throw? ==> h.response == Failure(world.groq.message) && h.effects == [])
  {
  }

  /** `notify` with a chat id and a token forwards the text and reports
      Telegram's `ok`; without them, like any other type, it gets 400. */
  lemma NotifyDispatch(event: RouterEvent, env: RouterEnv, world: RouterWorld)
    requires 0.0 <= world.random < 1.0
    requires Authorized(event, world) && event.body.request.kind == Some("notify")
    ensures var h := Route(event, env, world);
      var client := world.client.client;
      && (NotifyConfigured(client, env) && world.telegram.TelegramAnswered? ==>
            (h.response == JsonResponse(200, SuccessJson(world.telegram.ok))
             && h.effects == [SendAlert(client.telegramChatId.value, event.body.request.notificationText)]))
      && (!NotifyConfigured(client, env) ==> h == Handled(InvalidType, [], []))
  {
  }

  /** Past both gates, 400 is answered exactly when the type is neither
      `chat` nor a deliverable `notify`, and it calls and writes nothing. */
  lemma InvalidTypeExactly(event: RouterEvent, env: RouterEnv, world: RouterWorld)
    requires 0.0 <= world.random < 1.0
    requires Authorized(event, world)
    ensures var h := Route(event, env, world);
      var kind := event.body.request.kind;
      && (h.response.status == 400 <==> kind != Some("chat") && !(kind == Some("notify") && NotifyConfigured(world.client.client, env)))
      && (h.response.status == 400 ==> h.calls == [] && h.effects == [])
  {
  }

  /** With a non-empty pool, the key sent is one of the `GROQ_KEY_` values;
      with an empty pool it is `undefined`. */
  lemma KeyFromPool(event: RouterEvent, env: RouterEnv, world: RouterWorld)
    requires 0.0 <= world.random < 1.0
    requires Authorized(event, world) && event.body.request.kind == Some("chat")
    ensures var key := Route(event, env, world).calls[0].key;
      && (key.Some? <==> |GroqKeys(env.vars)| > 0)
      && (key.Some? ==> exists j :: 0 <= j < |env.vars| && OccursAt(env.vars[j].0, GroqKeyPrefix, 0) && env.vars[j].1 == key.value)
  {
    RouteChatKey(event, env, world);
    PoolKeyFromVars(env.vars, world.random);
  }

  /** The chat call's key is the one drawn from the pool. */
  lemma RouteChatKey(event: RouterEvent, env: RouterEnv, world: RouterWorld)
    requires 0.0 <= world.random < 1.0
    requires Authorized(event, world) && event.body.request.kind == Some("chat")
    ensures |Route(event, env, world).calls| == 1
    ensures Route(event, env, world).calls[0].key == ChosenKey(GroqKeys(env.vars), world.random)
  {
  }

  /** A key drawn from the pool is the value of some `GROQ_KEY_` variable. */
  lemma PoolKeyFromVars(vars: seq<(string, string)>, r: real)
    requires 0.0 <= r < 1.0
    ensures var key := ChosenKey(GroqKeys(vars), r);
      && (key.Some? <==> |GroqKeys(vars)| > 0)
      && (key.Some? ==> exists j :: 0 <= j < |vars| && OccursAt(vars[j].0, GroqKeyPrefix, 0) && vars[j].1 == key.value)
  {
    var keys := GroqKeys(vars);
    var key := ChosenKey(keys, r);
    if key.Some? {
      var k :| 0 <= k < |keys| && keys[k] == key.value;
    }
  }

  /** Every key of the pool is drawn for some value of `Math.random()`. */
  lemma EveryKeyReachable(keys: seq<string>, k: nat)
    requires k < |keys|
    ensures exists r: real :: 0.0 <= r < 1.0 && ChosenKey(keys, r) == Some(keys[k])
  {
    var n := |keys| as real;
    var r := k as real / n;
    assert r * n == k as real;
    assert PickIndex(r, |keys|) == k;
    assert ChosenKey(keys, r) == Some(keys[k]);
  }
}

=== FILE: widget.dfy ===
/**
  The chat widget's state machine: opening and closing the window, the
  one-time switch from the welcome panel to the chat area, the send button
  that is enabled only for non-blank input, and `handleSend`, which posts
  the trimmed text and shows the formatted exchange. The DOM, timers and
  animations are not modelled; a bubble is its role and its HTML.
 */
module ChatWidget {

  import opened Optional
  import opened JsStrings
  import opened History
  import opened Formatter

  /** One message bubble. */
  datatype Bubble = Bubble(role: string, html: string)

  /** The widget on one page: window open, chat started, the input box,
      the send button, the bubbles shown, and the session of this page. */
  datatype Widget = Widget(
    isOpen: bool,
    hasStartedChat: bool,
    input: string,
    sendDisabled: bool,
    bubbles: seq<Bubble>,
    sessionId: string)

  /** The body `handleSend` posts. */
  datatype Outgoing = Outgoing(clientId: string, message: string, sessionId: string)

  const DefaultClientId: string := "demo-id"
  const SessionPrefix: string := "sess_"
  const DemoFallback: string :=
    "Thank you for visiting Amila Bakes! As this is a demo, I can't process complex queries right now, but feel free to browse our menu."

  /** `scriptTag.getAttribute('data-id') || 'demo-id'`. */
  function ClientIdOf(dataId: Option<string>): (c: string)
    ensures c != ""
    ensures dataId.Some? && dataId.value != "" ==> c == dataId.value
  {
    if dataId.Some? && dataId.value != "" then dataId.value else DefaultClientId
  }

  /** `'sess_' + Date.now()`. */
  function SessionAt(now: nat): string {
    SessionPrefix + NatToDecimal(now)
  }

  /** The send button is disabled exactly when the input is blank. */
  predicate Consistent(w: Widget) {
    w.sendDisabled <==> Trim(w.input) == ""
  }

  /** The widget as the page loads it: closed, welcome panel shown, empty
      input, send disabled; the session is fixed at load time. */
  function Initial(loadTime: nat): (w: Widget)
    ensures Consistent(w) && !w.isOpen && !w.hasStartedChat && w.bubbles == []
    ensures w.input == "" && w.sendDisabled
  {
    Widget(false, false, "", true, [], SessionAt(loadTime))
  }

  /** `toggleChat`. */
  function ToggleChat(w: Widget): (r: Widget)
    ensures r.isOpen != w.isOpen
  {
    w.(isOpen := !w.isOpen)
  }

  /** The `input` listener: store the text and re-evaluate the send button. */
  function OnInput(w: Widget, value: string): (r: Widget)
    ensures r.input == value && Consistent(r)
  {
    w.(input := value, sendDisabled := Trim(value) == "")
  }

  /** `switchToChatMode`; `fired` tells whether the welcome panel was
      actually swapped for the chat area. */
  function SwitchToChatMode(w: Widget): (r: (Widget, bool))
    ensures r.0.hasStartedChat
    ensures r.1 <==> !w.hasStartedChat
  {
    if w.hasStartedChat then (w, false) else (w.(hasStartedChat := true), true)
  }

  /** `addMessage`: append one bubble with the formatted text. */
  function AddMessage(w: Widget, role: string, text: string): (r: Widget)
    ensures r.bubbles == w.bubbles + [Bubble(role, Format(text))]
  {
    w.(bubbles := w.bubbles + [Bubble(role, Format(text))])
  }

  /** `handleSend`, corrected: nothing for blank input; otherwise start the
      chat, show the user's text, clear the input, disable send, and post
      the trimmed text under the session fixed at page load. The code as
      written draws a new session at every send (`HandleSendAsWritten`). */
  function HandleSend(w: Widget, clientId: string): (r: (Widget, Option<Outgoing>))
    ensures r.1.Some? <==> Trim(w.input) != ""
  {
    var text := Trim(w.input);
    if text == "" then (w, None)
    else
      var started := SwitchToChatMode(w).0;
      var shown := AddMessage(started, "user", text);
      (shown.(input := "", sendDisabled := true), Some(Outgoing(clientId, text, w.sessionId)))
  }

  /** The answer to a send: the reply, or the demo text when the request
      failed, the body was not JSON, or it had no `reply`. */
  function ReceiveReply(w: Widget, reply: Option<string>): (r: Widget)
    ensures |r.bubbles| == |w.bubbles| + 1
  {
    AddMessage(w, "bot", reply.GetOr(DemoFallback))
  }

  // ---------------------------------------------------------------- lemmas

  /** The send button is disabled exactly when every character of the
      input is whitespace. */
  lemma SendEnabledIffContent(w: Widget, value: string)
    ensures OnInput(w, value).sendDisabled <==> forall i :: 0 <= i < |value| ==> IsJsSpace(value[i])
  {
    TrimEmptyIffAllSpace(value);
  }

  /** Blank input sends nothing and changes nothing. A real send posts the
      trimmed text, clears the input, disables the button, marks the chat
      started, and shows exactly one new bubble: the user's formatted text. */
  lemma SendGuard(w: Widget, clientId: string)
    ensures var (r, out) := HandleSend(w, clientId);
      && (Trim(w.input) == "" ==> r == w && out == None)
      && (Trim(w.input) != "" ==>
            && out == Some(Outgoing(clientId, Trim(w.input), w.sessionId))
            && r.input == "" && r.sendDisabled && r.hasStartedChat && r.isOpen == w.isOpen
            && r.bubbles == w.bubbles + [Bubble("user", Format(Trim(w.input)))])
  {
  }

  /** The message posted never starts or ends with whitespace and is never empty. */
  lemma SentTextIsTrimmed(w: Widget, clientId: string)
    requires HandleSend(w, clientId).1.Some?
    ensures var m := HandleSend(w, clientId).1.value.message;
      m != [] && !IsJsSpace(m[0]) && !IsJsSpace(m[|m| - 1]) && Trim(m) == m
  {
    var m := Trim(w.input);
    assert HandleSend(w, clientId).1.value.message == m;
    TrimNoop(m);
  }

  /** The switch takes effect at most once: a second call neither fires
      nor changes anything. */
  lemma SwitchOnce(w: Widget)
    ensures var (once, _) := SwitchToChatMode(w);
      SwitchToChatMode(once) == (once, false)
  {
  }

  /** Toggling twice restores the widget, and a toggle touches nothing but `isOpen`. */
  lemma ToggleTwice(w: Widget)
    ensures ToggleChat(ToggleChat(w)) == w
    ensures ToggleChat(w).(isOpen := w.isOpen) == w
  {
  }

  /** Every handler keeps the send button in step with the input. */
  lemma ConsistencyPreserved(w: Widget, clientId: string, value: string, reply: Option<string>)
    requires Consistent(w)
    ensures Consistent(ToggleChat(w))
    ensures Consistent(OnInput(w, value))
    ensures Consistent(HandleSend(w, clientId).0)
    ensures Consistent(SwitchToChatMode(w).0)
    ensures Consistent(ReceiveReply(w, reply))
  {
    assert Trim("") == "";
  }

  /** A failed request shows the demo text; a reply is shown formatted. */
  lemma ReplyShown(w: Widget, reply: Option<string>)
    ensures var r := ReceiveReply(w, reply);
      && r.bubbles[..|w.bubbles|] == w.bubbles
      && r.bubbles[|w.bubbles|] == Bubble("bot", Format(if reply.Some? then reply.value else DemoFallback))
  {
  }

  // ------------------------------------------------------------------
  // The session id as written: `'sess_' + Date.now()` is computed on every
  // send, so each message opens a new session.

  /** `handleSend` as written: the session id is taken from the clock at send time. */
  function HandleSendAsWritten(w: Widget, clientId: string, now: nat): (r: (Widget, Option<Outgoing>))
    ensures r.1.Some? <==> HandleSend(w, clientId).1.Some?
    ensures r.1.Some? ==> r.1.value == HandleSend(w, clientId).1.value.(sessionId := SessionAt(now))
    ensures r.0 == HandleSend(w, clientId).0
  {
    var (shown, out) := HandleSend(w, clientId);
    match out
    case None => (shown, None)
    case Some(o) => (shown, Some(o.(sessionId := SessionAt(now))))
  }

  /** Sends at different milliseconds carry different session ids. */
  lemma SessionsDiffer(t1: nat, t2: nat)
    requires t1 != t2
    ensures SessionAt(t1) != SessionAt(t2)
  {
    DecimalRoundTrip(t1);
    DecimalRoundTrip(t2);
    assert NatToDecimal(t1) != NatToDecimal(t2);
    assert SessionAt(t1)[|SessionPrefix|..] == NatToDecimal(t1);
    assert SessionAt(t2)[|SessionPrefix|..] == NatToDecimal(t2);
  }

  /** A session's log holds only its own turns. */
  lemma {:induction false} ForeignLogIsInvisible(log: seq<StoredTurn>, session: string)
    requires forall k :: 0 <= k < |log| ==> log[k].sessionId != session
    ensures SessionTurns(log, session) == []
  {
    if |log| > 0 {
      ForeignLogIsInvisible(log[1..], session);
    }
  }

  /** As written, the exchange stored for one message is invisible to the
      next message sent a millisecond or more later: the two sends post
      different sessions, so storing the first exchange leaves the second
      send's history window as it was. */
  lemma SecondSendForgetsFirst(w: Widget, c: string, log: seq<StoredTurn>, reply: string, next: string, t1: nat, t2: nat)
    requires HandleSendAsWritten(w, c, t1).1.Some?
    requires Trim(next) != "" && t1 != t2
    ensures var (w1, first) := HandleSendAsWritten(w, c, t1);
      var w2 := OnInput(ReceiveReply(w1, Some(reply)), next);
      var second := HandleSendAsWritten(w2, c, t2).1;
      var stored := log + [StoredTurn(c, first.value.sessionId, "user", first.value.message),
                           StoredTurn(c, first.value.sessionId, "assistant", reply)];
      && second.Some? && second.value.sessionId != first.value.sessionId
      && RecentChronological(stored, second.value.sessionId) == RecentChronological(log, second.value.sessionId)
  {
    SendsAsWritten(w, c, reply, next, t1, t2);
    SessionsDiffer(t1, t2);
    ExchangeInvisible(log, c, SessionAt(t1), HandleSendAsWritten(w, c, t1).1.value.message, reply, SessionAt(t2));
  }

  /** Two sends as written post the sessions of their own clocks. */
  lemma SendsAsWritten(w: Widget, c: string, reply: string, next: string, t1: nat, t2: nat)
    requires HandleSendAsWritten(w, c, t1).1.Some? && Trim(next) != ""
    ensures HandleSendAsWritten(w, c, t1).1.value.sessionId == SessionAt(t1)
    ensures var w2 := OnInput(ReceiveReply(HandleSendAsWritten(w, c, t1).0, Some(reply)), next);
      HandleSendAsWritten(w2, c, t2).1.Some? && HandleSendAsWritten(w2, c, t2).1.value.sessionId == SessionAt(t2)
  {
  }

  /** An exchange stored under one session leaves another session's
      history window unchanged. */
  lemma ExchangeInvisible(log: seq<StoredTurn>, c: string, session: string, text: string, reply: string, other: string)
    requires session != other
    ensures RecentChronological(log + [StoredTurn(c, session, "user", text), StoredTurn(c, session, "assistant", reply)], other)
         == RecentChronological(log, other)
  {
    var extra := [StoredTurn(c, session, "user", text), StoredTurn(c, session, "assistant", reply)];
    ForeignLogIsInvisible(extra, other);
    SessionTurnsSplit(log, extra, other);
    assert SessionTurns(log + extra, other) == SessionTurns(log, other);
  }

  /** Turns appended under a session are that session's newest turns. */
  lemma SessionTurnsAppend(log: seq<StoredTurn>, extra: seq<StoredTurn>, session: string)
    requires forall k :: 0 <= k < |extra| ==> extra[k].sessionId == session
    ensures SessionTurns(log + extra, session) == SessionTurns(log, session) + extra
  {
    SessionTurnsSplit(log, extra, session);
    OwnLogIsKept(extra, session);
  }

  /** A log holding only a session's turns is that session's log. */
  lemma {:induction false} OwnLogIsKept(log: seq<StoredTurn>, session: string)
    requires forall k :: 0 <= k < |log| ==> log[k].sessionId == session
    ensures SessionTurns(log, session) == log
  {
    if |log| > 0 {
      OwnLogIsKept(log[1..], session);
    }
  }

  /** The two turns stored last under a session are the last two
      messages of its history window. */
  lemma ExchangeIsNewest(log: seq<StoredTurn>, c: string, session: string, text: string, reply: string)
    ensures var r := RecentChronological(log + [StoredTurn(c, session, "user", text), StoredTurn(c, session, "assistant", reply)], session);
      |r| >= 2 && r[|r| - 2] == Message("user", text) && r[|r| - 1] == Message("assistant", reply)
  {
    var extra := [StoredTurn(c, session, "user", text), StoredTurn(c, session, "assistant", reply)];
    SessionTurnsAppend(log, extra, session);
    var t := SessionTurns(log + extra, session);
    assert t[|t| - 2] == extra[0] && t[|t| - 1] == extra[1];
  }

  /** Every handler keeps the page's session. */
  lemma SessionKept(w: Widget, c: string, value: string, reply: Option<string>)
    ensures ToggleChat(w).sessionId == w.sessionId
    ensures OnInput(w, value).sessionId == w.sessionId
    ensures ReceiveReply(w, reply).sessionId == w.sessionId
    ensures HandleSend(w, c).0.sessionId == w.sessionId
    ensures HandleSend(w, c).1.Some? ==> HandleSend(w, c).1.value.sessionId == w.sessionId
  {
  }

  /** With the session kept for the page, the exchange stored for one
      message is the newest history the next message sees. */
  lemma NextSendSeesExchange(w: Widget, c: string, log: seq<StoredTurn>, reply: string, next: string)
    requires HandleSend(w, c).1.Some?
    requires Trim(next) != ""
    ensures var (w1, first) := HandleSend(w, c);
      var w2 := OnInput(ReceiveReply(w1, Some(reply)), next);
      var second := HandleSend(w2, c).1;
      var stored := log + [StoredTurn(c, first.value.sessionId, "user", first.value.message),
                           StoredTurn(c, first.value.sessionId, "assistant", reply)];
      && second.Some? && second.value.sessionId == first.value.sessionId
      && var r := RecentChronological(stored, second.value.sessionId);
         |r| >= 2 && r[|r| - 2] == Message("user", first.value.message) && r[|r| - 1] == Message("assistant", reply)
  {
    var (w1, first) := HandleSend(w, c);
    var w1r := ReceiveReply(w1, Some(reply));
    var w2 := OnInput(w1r, next);
    SessionKept(w, c, next, Some(reply));
    SessionKept(w1, c, next, Some(reply));
    SessionKept(w1r, c, next, Some(reply));
    SessionKept(w2, c, next, Some(reply));
    ExchangeIsNewest(log, c, first.value.sessionId, first.value.message, reply);
  }
}
